=== FILE: README.md ===
# Ink2Pixel preprocessing core in Dafny

This project models the integer and sequence logic of Ink2Pixel's
`preprocessing` package. Ink2Pixel cleans up photographed handwriting before
recognition, and the model covers the parts around the OpenCV calls:

- **Line segmentation** (`find_text_lines_peaks`). Rows of a binary mask are
  counted. The code estimates a line height, finds the local maxima of the
  row counts and drops maxima that are too close together. It then cuts an
  asymmetric band around each kept peak and shrinks each band to the tight
  box of its ink.
- **Candidate filtering and sorting** (`find_character_contours` and
  `find_text_regions`). Contours pass area, aspect and size filters and are
  then stably sorted. Each contour arrives as a record holding its points,
  its doubled area and its bounding rectangle.
- **Crop of the text area** (`get_text_area_roi`). The code takes the union
  of the cached regions, pads it, clamps it to the image, and slices the
  image with Python's slice rules.
- **Image helpers**: the validity gate, the output-size arithmetic of
  `resize_image`, and `get_image_info`.
- **Preprocessing pipeline**:
  - the fixed stage order and the failure path of `preprocess`;
  - dispatch on strategy names, where an unknown name falls through;
  - the component-size filter of `clean_binary_image`;
  - the canvas geometry of `normalize_image`;
  - `get_preprocessing_info`.

## Modules

- `Common`: the shared types:
  - `Option`;
  - Python exceptions as values (`Outcome`, `Fault`);
  - boxes and contour records;
  - the truncating conversion `int(a / b)` (`TruncDiv`) with its bounds;
  - `MaxOf`.
- `StableSort`: Python's stable `list.sort(key=...)`, written as an
  insertion sort. Its result is sorted and is a permutation of the input.
  Stability is stated exactly: for every key, the elements carrying that key
  keep their input order (`WithKey`).
- `Utils`: `utils.py`. It also holds the two image representations:
  `Raster` for any decoded array, and `Grid` for the 2-D mask that line
  segmentation reads. `GridRaster` and `RasterGrid` convert between them.
- `ContourAnalysis`: `contour_analyzer.py`, including the `ContourAnalyzer`
  class. Its `FindCharacters` method keeps the character list as the cache
  when the image is valid.
- `LayoutDetection`: `layout_detector.py`, including the `LayoutDetector`
  class:
  - `FindRegions` caches the regions of a valid image;
  - `GetTextAreaRoi` crops using whatever the cache holds.
- `ImagePreprocessing`: `image_preprocessor.py`. The OpenCV primitives are
  the function-valued fields of a `Toolkit`. Every statement holds for any
  functions placed in those fields.

Floating-point quantities are kept exact:

- The line height is counted in fifths of a row. The code computes it as
  `total // 3 * 1.2`, which is `6 * (total // 3)` fifths.
- `int(...)` truncates toward zero.
- A contour area can be a half-integer, so it is kept doubled.
- Every aspect test `w / h` is cross-multiplied.

## Model

| member | source | states |
|---|---|---|
| Common.MaxOf | preprocessing/contour_analyzer.py:28 | the maximum bounds every entry and is one of them |
| Utils.SizeZeroIff | preprocessing/utils.py:48-49 | an array holds no element exactly when one of its dimensions is 0 |
| Utils.ValidateImage | preprocessing/utils.py:42-55 | valid iff the image is present, has 2 or 3 dimensions, is non-empty and is at least 50 × 50 |
| Utils.ValidGrid | preprocessing/contour_analyzer.py:13-16 | a 2-D mask passes the gate iff it is at least 50 × 50 |
| Utils.GridRaster | preprocessing/contour_analyzer.py:16 | a 2-D mask is the single-channel raster of its rows, with the mask's shape |
| Utils.RasterGrid | preprocessing/contour_analyzer.py:16 | a well-formed raster's rows form a grid of its height (and width, once it has a row) |
| Utils.GridRasterRoundTrip | preprocessing/contour_analyzer.py:16 | masks and 2-D rasters with a row convert into each other without loss |
| Utils.ScaledSize | preprocessing/utils.py:65-70 | with scale = min of the two ratios, neither new side exceeds its target, the side with the smaller ratio meets its target exactly, and the other side is `int(side · scale)`: its product with the first side's length lies within one such length of the exact value |
| Utils.ResizeShape | preprocessing/utils.py:62-80 | no target: image unchanged (and only then); two truthy targets give the scaled size; a single truthy width (or any height with a falsy width) is met exactly and the other side is `int(side · scale)`; a truthy target is never exceeded; raises exactly on a zero divisor or a `None` operand |
| Utils.ResizeImage | preprocessing/utils.py:58-80 | reading the shape of `None` raises an attribute error and a shape of fewer than 2 dimensions fails to unpack, whatever the targets; otherwise the outcome is that of the image's height and width; the image is returned unchanged iff it has a shape and both targets are `None` |
| Utils.GetImageInfo | preprocessing/utils.py:83-96 | `None` gives the empty record; a 1-D shape fails to unpack; a present shape of ≥ 2 dimensions raises iff its height is 0 and otherwise yields a record; width, height and aspect (width = aspect · height) are reported; channels are the third dimension of a 3-D array and 1 otherwise |
| Utils.ValidImageHasInfo | preprocessing/utils.py:83-96 | every valid image has an information record with sides ≥ 50 and ≥ 1 channel |
| StableSort.InsertSorted | preprocessing/contour_analyzer.py:110 | inserting into a sorted list keeps it sorted |
| StableSort.InsertPermutes | preprocessing/contour_analyzer.py:110 | insertion adds exactly the new element and loses none |
| StableSort.InsertWithKey | preprocessing/contour_analyzer.py:110 | insertion places the new element after the elements of equal key and disturbs no other key |
| StableSort.Sort | preprocessing/layout_detector.py:62 | the result is sorted by key, is a permutation of the input, and keeps each key's elements in input order |
| ContourAnalysis.CountInk | preprocessing/contour_analyzer.py:17 | a row's ink count is at most its length |
| ContourAnalysis.CountInkZero | preprocessing/contour_analyzer.py:17 | a row's count is 0 iff it holds no pixel equal to 255 |
| ContourAnalysis.FirstAbove | preprocessing/contour_analyzer.py:20 | the first index in range whose entry exceeds the threshold; none iff no entry does |
| ContourAnalysis.LastAbove | preprocessing/contour_analyzer.py:61-64 | the last index in range whose entry exceeds the threshold; none iff no entry does |
| ContourAnalysis.LineHeightFifths | preprocessing/contour_analyzer.py:20-25 | without rows of more than 5 ink pixels the height is 60 rows; otherwise it is 6·⌊span/3⌋ fifths, where the span runs from the first to the last such row |
| ContourAnalysis.MinDistance | preprocessing/contour_analyzer.py:39 | the spacing is ⌊0.6 · line height⌋, stated by its bounds |
| ContourAnalysis.PeaksBelow | preprocessing/contour_analyzer.py:30-36 | the rows the scan has kept before row n are peaks below n |
| ContourAnalysis.PeaksBelowIncreasing | preprocessing/contour_analyzer.py:30-36 | the scan keeps rows in strictly increasing order |
| ContourAnalysis.Peaks | preprocessing/contour_analyzer.py:27-36 | every peak is a row of the projection |
| ContourAnalysis.FindPeaks | preprocessing/contour_analyzer.py:27-36 | the result is the reference peak list: exactly the rows 10 ≤ i < height − 10 that exceed 60% of the maximum, exceed rows i ± 8, and are at least rows i ± 1, in increasing order |
| ContourAnalysis.FlatRunNoPeak | preprocessing/contour_analyzer.py:30-35 | no row of a run of at least 17 equal projection counts is a peak, since it never exceeds the row 8 above or 8 below within the run |
| ContourAnalysis.NoInkNoPeak | preprocessing/contour_analyzer.py:28-36 | a mask without ink has no peak |
| ContourAnalysis.SuppressClosePeaks | preprocessing/contour_analyzer.py:38-43 | no more kept peaks than peaks, and the first peak is always kept |
| ContourAnalysis.SuppressedMembers | preprocessing/contour_analyzer.py:41-43 | every kept peak is an input peak |
| ContourAnalysis.SuppressedSpaced | preprocessing/contour_analyzer.py:41-43 | kept peaks are increasing, and any two are at least `min_distance` apart |
| ContourAnalysis.SuppressedCovers | preprocessing/contour_analyzer.py:41-43 | every input peak is kept or lies less than `min_distance` after a kept peak |
| ContourAnalysis.BandStart | preprocessing/contour_analyzer.py:49 | a band starts at ⌊max(0, peak − 0.6·lh)⌋, never below its peak |
| ContourAnalysis.BandStartMonotone | preprocessing/contour_analyzer.py:49 | a later peak's band starts no higher |
| ContourAnalysis.BandEnd | preprocessing/contour_analyzer.py:50 | a band ends at min(height, ⌊peak + 0.4·lh⌋), between its peak and the image height |
| ContourAnalysis.Band | preprocessing/contour_analyzer.py:47-55 | the band starts at `BandStart` of its peak and contains the peak within the image; a band other than the last ends at `BandEnd`, and the last kept peak's band ends at the image height |
| ContourAnalysis.TightLine | preprocessing/contour_analyzer.py:56-76 | the box is non-empty and lies in the band and in the mask width; `y_end = y_start + height`; the top row is the band's first row with more than 3 ink pixels |
| ContourAnalysis.TightLineIsTight | preprocessing/contour_analyzer.py:57-64 | the box's edge rows and columns hold more than 3 ink pixels and nothing outside it does; no line exactly when the band has no such row or no such column |
| ContourAnalysis.BandLine | preprocessing/contour_analyzer.py:56-76 | a band's line lies inside the image and starts at the band's first row with more than 3 ink pixels |
| ContourAnalysis.BandLines | preprocessing/contour_analyzer.py:47-76 | one candidate per kept peak; each present one lies inside the image and starts at the first ink row of its band |
| ContourAnalysis.BandLinesOrdered | preprocessing/contour_analyzer.py:47-76 | candidates of later peaks never start higher |
| ContourAnalysis.Present | preprocessing/contour_analyzer.py:60-76 | at most one line per kept peak |
| ContourAnalysis.PresentMembers | preprocessing/contour_analyzer.py:60-76 | the emitted lines are exactly the present candidates |
| ContourAnalysis.PresentOrdered | preprocessing/contour_analyzer.py:71-76 | emitting candidates in peak order keeps their starts non-decreasing |
| ContourAnalysis.PresentBandLines | preprocessing/contour_analyzer.py:47-76 | the present band lines of increasing peaks lie inside the mask and are ordered by start |
| ContourAnalysis.TextLinesOfEmpty | preprocessing/contour_analyzer.py:13-14 | the assembled line list is empty for an invalid mask and for a mask without ink |
| ContourAnalysis.TextLinesOfOrdered | preprocessing/contour_analyzer.py:12-78 | the assembled lines lie inside the mask and their starts are non-decreasing |
| ContourAnalysis.FindTextLinesPeaks | preprocessing/contour_analyzer.py:12-78 | the lines are the present tight lines of the bands around the peaks that survive suppression at the estimated spacing, in peak order; an invalid mask gives no line, and so does a mask without ink; every line lies inside the mask with `y_end = y_start + height`; starts are non-decreasing |
| ContourAnalysis.KeptCharactersMembers | preprocessing/contour_analyzer.py:86-108 | the kept records are exactly the records of the contours that pass the filters, each with the box-centre `(x + w//2, y + h//2)` |
| ContourAnalysis.KeptCharactersBounded | preprocessing/contour_analyzer.py:90-108 | every kept record has 20 ≤ area ≤ 0.1·H·W, 0.1 ≤ w/h ≤ 3, 3 ≤ w ≤ 200 and 5 ≤ h ≤ 200 |
| ContourAnalysis.BoundsSurviveSort | preprocessing/contour_analyzer.py:110 | a permutation of bounded records is bounded |
| ContourAnalysis.FindCharacterContours | preprocessing/contour_analyzer.py:80-113 | an invalid image gives no candidates; otherwise (a 2-D mask, the only input contour extraction accepts) each record has 20 ≤ area ≤ 0.1·H·W, 0.1 ≤ w/h ≤ 3, 3 ≤ w ≤ 200 and 5 ≤ h ≤ 200; the output is the stable sort by (y, x) of exactly the passing records |
| ContourAnalysis.ContourAnalyzer.FindCharacters | preprocessing/contour_analyzer.py:80-113 | returns the candidates; a valid image replaces the cached list with them, and an invalid one leaves the cache as it was; the cached text lines are untouched |
| LayoutDetection.KeptRegionsMembers | preprocessing/layout_detector.py:40-59 | the kept regions are exactly the regions of the contours that pass the filters |
| LayoutDetection.KeptRegionsBounded | preprocessing/layout_detector.py:41-54 | every kept region has area ≥ 200 and 0.1 ≤ w/h ≤ 15 |
| LayoutDetection.FindTextRegions | preprocessing/layout_detector.py:13-65 | an invalid image gives no region; otherwise (a 2-D mask, the only input contour extraction accepts) the output is the stable sort by top edge of exactly the passing regions, each with area ≥ 200 and 0.1 ≤ w/h ≤ 15 |
| LayoutDetection.SliceIndex | preprocessing/layout_detector.py:100 | a slice bound inside the axis is itself; a negative one counts from the end and stops at 0; a large one stops at the length |
| LayoutDetection.SliceRange | preprocessing/layout_detector.py:100 | a slice selects from its normalised start up to its normalised end, and is empty when the end is before the start |
| LayoutDetection.UnionEdges | preprocessing/layout_detector.py:88-91 | the union box contains every region box, and each of its edges is reached by some region |
| LayoutDetection.PaddedWindow | preprocessing/layout_detector.py:93-100 | the padded, clamped and sliced window satisfies 0 ≤ min_x ≤ max_x ≤ width and 0 ≤ min_y ≤ max_y ≤ height |
| LayoutDetection.PaddedWindowBounds | preprocessing/layout_detector.py:93-100 | slicing never moves a near edge past the clamped padded edge, nor a far edge before the clamped padded edge |
| LayoutDetection.PaddedWindowExact | preprocessing/layout_detector.py:93-100 | for padding ≥ 0 and a box inside the image, the window is the box widened by the padding and clipped to the image; the slice changes nothing |
| LayoutDetection.RoiWindow | preprocessing/layout_detector.py:85-100 | the crop window satisfies 0 ≤ min_x ≤ max_x ≤ width and 0 ≤ min_y ≤ max_y ≤ height |
| LayoutDetection.RoiWindowExact | preprocessing/layout_detector.py:88-100 | for padding ≥ 0 and regions inside the image, the window is the union box widened by the padding and clipped to the image |
| LayoutDetection.RoiWindowCoversRegions | preprocessing/layout_detector.py:88-100 | for padding ≥ 0 and any cached regions, the window contains the in-image part of every region box, and the whole box when it lies inside the image |
| LayoutDetection.Crop | preprocessing/layout_detector.py:100 | the crop has the window's size and the image's channels, and pixel (y, x) comes from (min_y + y, min_x + x) |
| LayoutDetection.TextAreaRoi | preprocessing/layout_detector.py:67-100 | an invalid image, or no cached region, returns the input unchanged; otherwise the result is the image cropped to the window |
| LayoutDetection.LayoutDetector.FindRegions | preprocessing/layout_detector.py:13-65 | returns the regions; a valid image replaces the cached list with them, and an invalid one leaves the cache as it was |
| LayoutDetection.LayoutDetector.GetTextAreaRoi | preprocessing/layout_detector.py:67-100 | the crop is taken around the regions the last successful detection cached |
| ImagePreprocessing.ParseContrast | preprocessing/image_preprocessor.py:37-47 | a recognised contrast name is the name of the strategy it selects |
| ImagePreprocessing.ParseNoise | preprocessing/image_preprocessor.py:53-58 | a recognised noise name is the name of the filter it selects |
| ImagePreprocessing.ParseThreshold | preprocessing/image_preprocessor.py:64-74 | a recognised threshold name is the name of the method it selects |
| ImagePreprocessing.StrategyNamesRoundTrip | preprocessing/image_preprocessor.py:35-76 | naming and parsing are inverse, and a name is unknown iff no strategy carries it |
| ImagePreprocessing.EnhanceContrast | preprocessing/image_preprocessor.py:35-49 | an unknown name returns the input unchanged; a known name applies its strategy |
| ImagePreprocessing.ReduceNoise | preprocessing/image_preprocessor.py:51-60 | an unknown name returns the input unchanged; a known name applies its filter |
| ImagePreprocessing.ApplyThreshold | preprocessing/image_preprocessor.py:62-76 | an unknown name returns the input unchanged; a known name applies its method |
| ImagePreprocessing.SurvivorMaskOnly | preprocessing/image_preprocessor.py:88-94 | the component filter has exactly one result: the mask of the labels' shape that is 255 on foreground components of area ≥ 10 and 0 elsewhere |
| ImagePreprocessing.CleanBinaryImage | preprocessing/image_preprocessor.py:78-100 | the stages run in the order median blur, opening, component labelling, component filter, closing: the result is the closing of the one mask that stamps exactly the surviving components of the blurred-then-opened image's labelling (the mask `StampComponents` is proved to build) |
| ImagePreprocessing.StampComponents | preprocessing/image_preprocessor.py:88-94 | the mask has the labels' shape; a pixel is 255 iff its label is a foreground label with area ≥ 10, else 0; background is never stamped |
| ImagePreprocessing.InitialState | preprocessing/image_preprocessor.py:10-12 | a fresh preprocessor has neither image |
| ImagePreprocessing.ProcessGray | preprocessing/image_preprocessor.py:20-26 | the calls by default names equal the stage list contrast → denoise → threshold → clean |
| ImagePreprocessing.Preprocess | preprocessing/image_preprocessor.py:14-33 | the loaded image is always recorded; an invalid one returns nothing and keeps the last result; a valid one returns the stage list applied to its grey version and caches it |
| ImagePreprocessing.NormalizeGeometry | preprocessing/image_preprocessor.py:113-132 | a zero side raises a division by zero; otherwise a placement is returned iff both sides of the scaled size are at least 1, and the resize refuses the size otherwise; a placement's size fits the target, meets it exactly on the side with the smaller ratio, and is `int(side · scale)` on the other; the offsets are `(target − new) // 2`, which centres the block |
| ImagePreprocessing.NormalizeGeometryReturns | preprocessing/image_preprocessor.py:117-124 | a non-empty image enlarged into a larger target always gets a positive size |
| ImagePreprocessing.Paste | preprocessing/image_preprocessor.py:126-134 | the canvas is target_height × target_width with the block's channels; the block sits at the offsets and every other pixel is 0 |
| ImagePreprocessing.NormalizeImage | preprocessing/image_preprocessor.py:102-136 | a failing geometry raises its fault; with a placement, a result is returned iff the resize yields a well-formed block of the requested size, and a shape mismatch is raised otherwise; a result is exactly target_height × target_width, holds the resized block at the centring offsets, and is 0 elsewhere |
| ImagePreprocessing.GetPreprocessingInfo | preprocessing/image_preprocessor.py:138-151 | a record exists iff both images are set; sizes are (width, height); the processed image has 2 dimensions |
| ImagePreprocessing.InfoAfterPreprocess | preprocessing/image_preprocessor.py:138-151 | after a successful run the record describes the loaded image and the returned result; after a failed first run there is none |

## Left out

- OpenCV primitives are not modelled. Their results are inputs:
  - contours arrive as `Contour` records (`findContours`, `contourArea`, `boundingRect`);
  - component labelling arrives as a `Labeling`;
  - colour conversion, CLAHE, histogram equalisation, the gamma lookup table, blurs, thresholds, morphology and `resize` are the fields of a `Toolkit`.

  Their floating-point internals are out of scope.
- `find_text_regions` applies a closing and a dilation before extracting contours (`layout_detector.py:29-38`). Both are primitives. The model takes the contours of the processed mask.
- `load_image` and `save_image` are file I/O. `Preprocess` receives the loader's result, with None for a failed load. Saving to `output_path` is not modelled.
- Floating point is modelled with exact values:
  - line height, spacing and band edges are exact rationals, truncated toward zero;
  - the aspect ratio of `get_image_info` is an exact real;
  - the size ratios of `resize_image` and `normalize_image` are exact.

  A float product such as `width * (target_width / width)` can land just below an integer, so the source may truncate one less than the model at such boundaries.
- FindCharacterContours, FindTextRegions: `validate_image` also accepts 3-D (colour) arrays, but contour extraction (`contour_analyzer.py:84`, `layout_detector.py:38`) accepts only single-channel 8-bit masks and raises on anything else. That error path is not modelled: the contours are an input, so for a valid 3-D shape the model returns the filtered, sorted records where the source raises.
- FindCharacterContours and FindTextRegions require every bounding box to be at least one pixel high and wide. The source divides `w / h` after the area filter, so a zero-height box would raise `ZeroDivisionError`; `boundingRect` never returns one.
- FindTextLinesPeaks takes a 2-D mask. The source unpacks `height, width = image.shape`, so a 3-D array would raise; that error path is not modelled.
- ResizeImage: models the size handed to `cv2.resize` and the exceptions raised before the call, including those of reading the shape. The resize itself, including its refusal of a zero or negative size, is a primitive.
- NormalizeImage: a resize result whose size differs from the requested one is reported as a shape mismatch. NumPy could broadcast a dimension of length 1 instead; `cv2.resize` always returns the requested size. The canvas's `uint8` type is not modelled; the zero pixel is a parameter.
- An unknown strategy name could be read as an error, but the code returns the input unchanged, and the model follows the code (`EnhanceContrast`, `ReduceNoise`, `ApplyThreshold`).
- `validate_image` counts array dimensions, not colour channels. The model does the same; a 3-D array with zero channels is invalid only because it is empty.
- `ContourAnalyzer.text_lines` is initialised but never written by `find_text_lines_peaks`. The model keeps the field and leaves it empty.
- The web UI, the demo script and the package's `__init__` re-exports are not part of this model.

=== FILE: common.dfy ===
/** Vocabulary shared by every part of the preprocessing model: optional
    values, Python exceptions as values, axis-aligned boxes, the abstract
    contour records produced by the contour primitives, and the truncating
    conversion `int(a / b)`. */
module Common {

  /** A value that may be absent (Python's `None`). */
  datatype Option<+T> = None | Some(value: T)

  /** The Python exceptions the modelled code can raise on its own. */
  datatype Fault =
    | ZeroDivision      // a true division by a zero image dimension
    | NoneOperand       // arithmetic on a `None` argument
    | EmptyResize       // a resize to a non-positive target size
    | UnpackMismatch    // unpacking a shape that has too few dimensions
    | ShapeMismatch     // pasting a block whose shape differs from its slot
    | MissingAttribute  // reading an attribute such as `.shape` of `None`

  /** The result of a Python call: a returned value or a raised exception. */
  datatype Outcome<+T> = Returns(value: T) | Raises(fault: Fault)

  /** An axis-aligned rectangle in pixel units: top-left corner (x, y) and
      extent w × h, the 4-tuple a bounding-rectangle primitive returns. */
  datatype Box = Box(x: int, y: int, w: int, h: int)
  {
    /** The box lies inside an image of the given width and height. */
    predicate Inside(width: int, height: int) {
      0 <= x && 0 <= y && x + w <= width && y + h <= height
    }
  }

  type Point = (int, int)

  /** One external contour together with what the contour primitives report
      about it: its enclosed area doubled (a polygon area is a multiple of
      one half) and its bounding rectangle. */
  datatype Contour = Contour(points: seq<Point>, twiceArea: nat, box: Box)

  /** A bounding rectangle as the primitive produces it: at least one pixel
      in each direction, so the aspect ratio `w / h` is defined. */
  predicate NonDegenerate(b: Box) {
    b.w >= 1 && b.h >= 1
  }

  /** Python's `int(a / b)` for b > 0: the exact quotient truncated toward zero. */
  function TruncDiv(a: int, b: int): int
    requires b > 0
  {
    if a >= 0 then a / b else -((-a) / b)
  }

  lemma MulNonNegative(u: int, b: int)
    requires u >= 0 && b >= 0
    ensures u * b >= 0
  {
  }

  lemma ProductBelowNext(x: int, y: int, b: int)
    requires b > 0 && x * b < y * b + b
    ensures x <= y
  {
    if x > y {
      MulNonNegative(x - y - 1, b);
      assert false;
    }
  }

  /** q is `int(a / b)` for b > 0: the exact quotient with its fraction
      dropped toward zero. */
  predicate TruncQuotient(q: int, a: int, b: int) {
    && b > 0
    && (a >= 0 ==> q * b <= a < q * b + b)
    && (a < 0 ==> q * b - b < a <= q * b)
  }

  /** TruncDiv(a, b) is the integer q nearest zero with q·b within one b of a. */
  lemma TruncDivBounds(a: int, b: int)
    requires b > 0
    ensures TruncQuotient(TruncDiv(a, b), a, b)
    ensures a >= 0 ==> TruncDiv(a, b) * b <= a < TruncDiv(a, b) * b + b
    ensures a < 0 ==> TruncDiv(a, b) * b - b < a <= TruncDiv(a, b) * b
  {
  }

  /** Truncation never lands above an integer bound of the exact quotient. */
  lemma TruncDivAtMost(a: int, b: int, c: int)
    requires b > 0 && a <= c * b
    ensures TruncDiv(a, b) <= c
  {
    TruncDivBounds(a, b);
    ProductBelowNext(TruncDiv(a, b), c, b);
  }

  /** Truncation never lands below an integer bound of the exact quotient. */
  lemma TruncDivAtLeast(a: int, b: int, c: int)
    requires b > 0 && c * b <= a
    ensures c <= TruncDiv(a, b)
  {
    TruncDivBounds(a, b);
    ProductBelowNext(c, TruncDiv(a, b), b);
  }

  /** Truncation is monotone in the numerator. */
  lemma TruncDivMonotone(a: int, a': int, b: int)
    requires b > 0 && a <= a'
    ensures TruncDiv(a, b) <= TruncDiv(a', b)
  {
    if 0 <= a {
      FloorDivMonotone(a, a', b);
    } else if a' < 0 {
      FloorDivMonotone(-a', -a, b);
      assert TruncDiv(a, b) == -((-a) / b) && TruncDiv(a', b) == -((-a') / b);
    } else {
      FloorDivMonotone(0, -a, b);
      FloorDivMonotone(0, a', b);
      assert TruncDiv(a, b) == -((-a) / b) && TruncDiv(a', b) == a' / b;
    }
  }

  lemma FloorDivMonotone(x: int, y: int, b: int)
    requires b > 0 && 0 <= x <= y
    ensures 0 <= x / b <= y / b
  {
    var q, r := x / b, x % b;
    var q', r' := y / b, y % b;
    assert x == q * b + r && 0 <= r < b;
    assert y == q' * b + r' && 0 <= r' < b;
    ProductBelowNext(q, q', b);
  }

  /** The largest entry, as Python's `max` or `np.max` returns it (both
      raise on an empty sequence). */
  function MaxOf(s: seq<int>): (m: int)
    requires |s| > 0
    ensures forall i :: 0 <= i < |s| ==> s[i] <= m
    ensures exists i :: 0 <= i < |s| && s[i] == m
    decreases |s|
  {
    if |s| == 1 then s[0]
    else
      var rest := MaxOf(s[1..]);
      assert forall i :: 1 <= i < |s| ==> s[i] == s[1..][i - 1];
      if s[0] >= rest then s[0] else rest
  }

  function Min(a: int, b: int): int { if a <= b then a else b }

  function Max(a: int, b: int): int { if a >= b then a else b }
}

=== FILE: contour_analysis.dfy ===
/** The contour analyzer: text-line segmentation by horizontal-projection
    peaks over a binary mask, and the filtering and ordering of character
    candidates. The contour primitives (boundary tracing, polygon area,
    bounding rectangle) are not modelled; their results arrive as `Contour`
    records. */
module ContourAnalysis {
  import opened Common
  import opened Utils
  import StableSort

  /** The value of an ink pixel in a binary mask. */
  const Ink := 255

  /** Number of ink pixels in a row (or column) of a mask. */
  function CountInk(row: seq<int>): (n: nat)
    ensures n <= |row|
    decreases |row|
  {
    if |row| == 0 then 0
    else CountInk(row[..|row| - 1]) + (if row[|row| - 1] == Ink then 1 else 0)
  }

  /** A row has no ink exactly when its ink count is zero. */
  lemma {:induction false} CountInkZero(row: seq<int>)
    ensures CountInk(row) == 0 <==> forall j :: 0 <= j < |row| ==> row[j] != Ink
    decreases |row|
  {
    if |row| > 0 {
      var init := row[..|row| - 1];
      CountInkZero(init);
      assert forall j :: 0 <= j < |init| ==> init[j] == row[j];
    }
  }

  /** The horizontal projection: the ink count of every row. */
  function Projection(g: Grid): seq<nat> {
    seq(|g|, y requires 0 <= y < |g| => CountInk(g[y]))
  }

  /** The pixels of column `c` in rows lo..hi. */
  function Column(g: Grid, lo: nat, hi: nat, c: nat): seq<int>
    requires IsGrid(g) && lo <= hi <= |g| && c < Width(g)
  {
    seq(hi - lo, k requires 0 <= k < hi - lo => g[lo + k][c])
  }

  /** The vertical projection of the band of rows lo..hi: the ink count of
      every column within the band. */
  function ColumnCounts(g: Grid, lo: nat, hi: nat): seq<nat>
    requires IsGrid(g) && lo <= hi <= |g|
  {
    seq(Width(g), c requires 0 <= c < Width(g) => CountInk(Column(g, lo, hi, c)))
  }

  /** The mask holds no ink pixel at all. */
  predicate NoInk(g: Grid) {
    forall y, x :: 0 <= y < |g| && 0 <= x < |g[y]| ==> g[y][x] != Ink
  }

  predicate StrictlyIncreasing(s: seq<int>) {
    forall i, j :: 0 <= i < j < |s| ==> s[i] < s[j]
  }

  /** The first index in lo..hi whose entry exceeds t. */
  function FirstAbove(s: seq<int>, lo: nat, hi: nat, t: int): (r: Option<nat>)
    requires lo <= hi <= |s|
    ensures r.Some? ==> lo <= r.value < hi && s[r.value] > t && forall j :: lo <= j < r.value ==> s[j] <= t
    ensures r.None? ==> forall j :: lo <= j < hi ==> s[j] <= t
    decreases hi - lo
  {
    if lo == hi then None
    else if s[lo] > t then Some(lo)
    else FirstAbove(s, lo + 1, hi, t)
  }

  /** The last index in lo..hi whose entry exceeds t. */
  function LastAbove(s: seq<int>, lo: nat, hi: nat, t: int): (r: Option<nat>)
    requires lo <= hi <= |s|
    ensures r.Some? ==> lo <= r.value < hi && s[r.value] > t && forall j :: r.value < j < hi ==> s[j] <= t
    ensures r.None? ==> forall j :: lo <= j < hi ==> s[j] <= t
    decreases hi - lo
  {
    if lo == hi then None
    else if s[hi - 1] > t then Some(hi - 1)
    else LastAbove(s, lo, hi - 1, t)
  }

  /** The estimated line height in fifths of a row. With text rows (more
      than 5 ink pixels) spanning first..last it is floor(span / 3) * 1.2,
      that is 6 * floor(span / 3) fifths; without any it is 60 rows. */
  function LineHeightFifths(p: seq<nat>): (fifths: nat)
    ensures (forall y :: 0 <= y < |p| ==> p[y] <= 5) ==> fifths == 300
    ensures (exists y :: 0 <= y < |p| && p[y] > 5) ==>
      exists first, last ::
        && 0 <= first <= last < |p| && p[first] > 5 && p[last] > 5
        && (forall y :: 0 <= y < first ==> p[y] <= 5)
        && (forall y :: last < y < |p| ==> p[y] <= 5)
        && fifths == 6 * ((last - first + 1) / 3)
  {
    var first := FirstAbove(p, 0, |p|, 5);
    var last := LastAbove(p, 0, |p|, 5);
    if first.Some? && last.Some? then 6 * ((last.value - first.value + 1) / 3) else 300
  }

  /** `int(line_height * 0.6)`: the least spacing between two kept peaks. */
  function MinDistance(fifths: nat): (d: nat)
    ensures 25 * d <= 3 * fifths < 25 * d + 25
  {
    (3 * fifths) / 25
  }

  /** Row i is a peak: at least 10 rows from either edge, above 60% of the
      largest row count, strictly above the rows 8 away on both sides and
      not below its two neighbours. */
  predicate IsPeak(p: seq<nat>, i: int)
    requires |p| > 0
  {
    && 10 <= i < |p| - 10
    && 5 * p[i] > 3 * MaxOf(p)
    && p[i] > p[i - 8] && p[i] > p[i + 8]
    && p[i] >= p[i - 1] && p[i] >= p[i + 1]
  }

  /** The peaks among rows 10 .. n - 1, in row order: the rows the scan has
      kept once it reaches row n. */
  function PeaksBelow(p: seq<nat>, n: int): (peaks: seq<nat>)
    requires |p| > 0
    ensures forall k :: 0 <= k < |peaks| ==> IsPeak(p, peaks[k]) && peaks[k] < n
    decreases n
  {
    if n <= 10 then []
    else PeaksBelow(p, n - 1) + (if IsPeak(p, n - 1) then [n - 1] else [])
  }

  /** The scanned peaks come in strictly increasing row order. */
  lemma {:induction false} PeaksBelowIncreasing(p: seq<nat>, n: int)
    requires |p| > 0
    ensures StrictlyIncreasing(PeaksBelow(p, n))
    decreases n
  {
    if n > 10 {
      PeaksBelowIncreasing(p, n - 1);
    }
  }

  /** The scan misses no peak among rows 10 .. n - 1. */
  lemma {:induction false} PeaksBelowComplete(p: seq<nat>, n: int)
    requires |p| > 0
    ensures forall j :: 10 <= j < n && IsPeak(p, j) ==> j in PeaksBelow(p, n)
    decreases n
  {
    if n > 10 {
      PeaksBelowComplete(p, n - 1);
    }
  }

  /** All peaks of the projection, in row order. */
  function Peaks(p: seq<nat>): (peaks: seq<nat>)
    requires |p| > 0
    ensures forall k :: 0 <= k < |peaks| ==> peaks[k] < |p|
  {
    PeaksBelow(p, |p| - 10)
  }

  /** The scan for local maxima of the projection: exactly the peaks, in
      increasing row order. */
  method FindPeaks(p: seq<nat>) returns (peaks: seq<nat>)
    requires |p| > 0
    ensures peaks == Peaks(p)
    ensures forall k :: 0 <= k < |peaks| ==> IsPeak(p, peaks[k])
    ensures forall i :: IsPeak(p, i) ==> i in peaks
    ensures StrictlyIncreasing(peaks)
  {
    var maxCount := MaxOf(p);
    peaks := [];
    var i := 10;
    while i < |p| - 10
      invariant 10 <= i <= Max(10, |p| - 10)
      invariant peaks == PeaksBelow(p, i)
    {
      if && 5 * p[i] > 3 * maxCount
         && p[i] > p[i - 8] && p[i] > p[i + 8]
         && p[i] >= p[i - 1] && p[i] >= p[i + 1]
      {
        peaks := peaks + [i];
      }
      i := i + 1;
    }
    PeaksBelowIncreasing(p, i);
    PeaksBelowComplete(p, i);
  }

  /** A flat run of at least 17 equal rows holds no peak: every row of it
      has a row of the run 8 above or 8 below, which it does not exceed. */
  lemma FlatRunNoPeak(p: seq<nat>, lo: nat, hi: nat)
    requires |p| > 0 && lo + 17 <= hi <= |p|
    requires forall j :: lo <= j < hi ==> p[j] == p[lo]
    ensures forall i :: lo <= i < hi ==> !IsPeak(p, i)
  {
    forall i | lo <= i < hi
      ensures !IsPeak(p, i)
    {
      if i + 8 < hi {
        assert p[i + 8] == p[i];
      } else {
        assert p[i - 8] == p[i];
      }
    }
  }

  /** A projection without ink rows has no peak: no row can exceed 60% of a
      maximum of zero. */
  lemma NoInkNoPeak(g: Grid)
    requires NoInk(g) && |g| > 0
    ensures forall i :: !IsPeak(Projection(g), i)
  {
    var p := Projection(g);
    assert forall y :: 0 <= y < |p| ==> p[y] == 0 by {
      forall y | 0 <= y < |p|
        ensures p[y] == 0
      {
        CountInkZero(g[y]);
      }
    }
  }

  /** The greedy left-to-right suppression: a peak is kept when no peak is
      kept yet or it lies at least `minDistance` rows past the last kept
      one. Defined on the prefixes of `peaks`, as the loop visits them. */
  function SuppressClosePeaks(peaks: seq<nat>, minDistance: nat): (kept: seq<nat>)
    ensures |kept| <= |peaks|
    ensures |peaks| > 0 ==> |kept| > 0 && kept[0] == peaks[0]
    decreases |peaks|
  {
    if |peaks| == 0 then []
    else
      var kept := SuppressClosePeaks(peaks[..|peaks| - 1], minDistance);
      var p := peaks[|peaks| - 1];
      if |kept| == 0 || p - kept[|kept| - 1] >= minDistance then kept + [p] else kept
  }

  /** Peak `p` is one of the kept peaks or lies less than `d` rows after one. */
  predicate Covered(p: int, kept: seq<nat>, d: nat) {
    exists k :: 0 <= k < |kept| && (kept[k] == p || kept[k] < p < kept[k] + d)
  }

  lemma CoveredExtend(p: int, kept: seq<nat>, x: nat, d: nat)
    requires Covered(p, kept, d)
    ensures Covered(p, kept + [x], d)
  {
    var k :| 0 <= k < |kept| && (kept[k] == p || kept[k] < p < kept[k] + d);
    assert (kept + [x])[k] == kept[k];
  }

  /** Suppression only drops peaks: every kept peak is an input peak. */
  lemma {:induction false} SuppressedMembers(peaks: seq<nat>, minDistance: nat)
    ensures forall k :: 0 <= k < |SuppressClosePeaks(peaks, minDistance)| ==>
      SuppressClosePeaks(peaks, minDistance)[k] in peaks
    decreases |peaks|
  {
    if |peaks| > 0 {
      var init := peaks[..|peaks| - 1];
      SuppressedMembers(init, minDistance);
      var k0 := SuppressClosePeaks(init, minDistance);
      assert forall k :: 0 <= k < |k0| ==> k0[k] in init;
      forall k | 0 <= k < |k0|
        ensures k0[k] in peaks
      {
        var j :| 0 <= j < |init| && init[j] == k0[k];
        assert peaks[j] == k0[k];
      }
    }
  }

  /** Kept peaks lie below any bound the input peaks lie below. */
  lemma KeptBelow(peaks: seq<nat>, bound: int, minDistance: nat)
    requires forall i :: 0 <= i < |peaks| ==> peaks[i] < bound
    ensures forall k :: 0 <= k < |SuppressClosePeaks(peaks, minDistance)| ==> SuppressClosePeaks(peaks, minDistance)[k] < bound
  {
    SuppressedMembers(peaks, minDistance);
  }

  /** Kept peaks stay in increasing order, and any two of them are at least
      `minDistance` rows apart. */
  lemma {:induction false} SuppressedSpaced(peaks: seq<nat>, minDistance: nat)
    requires StrictlyIncreasing(peaks)
    ensures StrictlyIncreasing(SuppressClosePeaks(peaks, minDistance))
    ensures forall a, b :: 0 <= a < b < |SuppressClosePeaks(peaks, minDistance)| ==>
      SuppressClosePeaks(peaks, minDistance)[b] - SuppressClosePeaks(peaks, minDistance)[a] >= minDistance
    decreases |peaks|
  {
    if |peaks| > 0 {
      var init := peaks[..|peaks| - 1];
      var p := peaks[|peaks| - 1];
      SuppressedSpaced(init, minDistance);
      assert forall i :: 0 <= i < |init| ==> init[i] < p;
      KeptBelow(init, p, minDistance);
      var k0 := SuppressClosePeaks(init, minDistance);
      var kept := SuppressClosePeaks(peaks, minDistance);
      if kept != k0 {
        assert kept == k0 + [p];
        forall a, b | 0 <= a < b < |kept|
          ensures kept[a] < kept[b] && kept[b] - kept[a] >= minDistance
        {
          if b == |k0| && a < |k0| - 1 {
            assert k0[a] < k0[|k0| - 1];
          }
        }
      }
    }
  }

  /** Every dropped peak lies less than `minDistance` rows after some kept
      peak: each input peak is covered by the kept ones. */
  lemma {:induction false} SuppressedCovers(peaks: seq<nat>, minDistance: nat)
    requires StrictlyIncreasing(peaks)
    ensures forall j :: 0 <= j < |peaks| ==> Covered(peaks[j], SuppressClosePeaks(peaks, minDistance), minDistance)
    decreases |peaks|
  {
    if |peaks| > 0 {
      var init := peaks[..|peaks| - 1];
      var p := peaks[|peaks| - 1];
      SuppressedCovers(init, minDistance);
      var k0 := SuppressClosePeaks(init, minDistance);
      var kept := SuppressClosePeaks(peaks, minDistance);
      if |k0| == 0 || p - k0[|k0| - 1] >= minDistance {
        assert kept == k0 + [p];
        forall j | 0 <= j < |peaks|
          ensures Covered(peaks[j], kept, minDistance)
        {
          if j < |init| {
            assert init[j] == peaks[j];
            CoveredExtend(peaks[j], k0, p, minDistance);
          } else {
            assert kept[|kept| - 1] == p;
          }
        }
      } else {
        assert kept == k0;
        assert forall i :: 0 <= i < |init| ==> init[i] < p;
        KeptBelow(init, p, minDistance);
        forall j | 0 <= j < |peaks|
          ensures Covered(peaks[j], kept, minDistance)
        {
          if j < |init| {
            assert init[j] == peaks[j];
          } else {
            assert kept[|kept| - 1] < p < kept[|kept| - 1] + minDistance;
          }
        }
      }
    }
  }

  /** First row of a peak's band: `max(0, int(peak - 0.6 * line_height))`. */
  function BandStart(peak: nat, fifths: nat): (ys: nat)
    ensures ys <= peak
    ensures 25 * ys <= Max(0, 25 * peak - 3 * fifths) < 25 * ys + 25
  {
    TruncDivAtMost(25 * peak - 3 * fifths, 25, peak);
    TruncDivBounds(25 * peak - 3 * fifths, 25);
    Max(0, TruncDiv(25 * peak - 3 * fifths, 25))
  }

  /** A later peak's band never starts above an earlier one's. */
  lemma BandStartMonotone(peak: nat, peak': nat, fifths: nat)
    requires peak <= peak'
    ensures BandStart(peak, fifths) <= BandStart(peak', fifths)
  {
    TruncDivMonotone(25 * peak - 3 * fifths, 25 * peak' - 3 * fifths, 25);
  }

  /** End (exclusive) of a peak's band: `min(height, int(peak + 0.4 * line_height))`. */
  function BandEnd(peak: nat, fifths: nat, height: nat): (ye: nat)
    requires peak <= height
    ensures peak <= ye <= height
    ensures 25 * ye <= 25 * peak + 2 * fifths
    ensures ye == height || 25 * peak + 2 * fifths < 25 * ye + 25
  {
    TruncDivAtLeast(25 * peak + 2 * fifths, 25, peak);
    TruncDivBounds(25 * peak + 2 * fifths, 25);
    Min(height, TruncDiv(25 * peak + 2 * fifths, 25))
  }

  /** The band of the k-th kept peak: 60% of a line height above it, 40%
      below, and for the last kept peak down to the bottom of the image. */
  function Band(peaks: seq<nat>, k: nat, fifths: nat, height: nat): (band: (nat, nat))
    requires k < |peaks| && peaks[k] < height
    ensures band.0 <= peaks[k] <= band.1 <= height
    ensures k == |peaks| - 1 ==> band.1 == height
    ensures band.0 == BandStart(peaks[k], fifths)
    ensures k < |peaks| - 1 ==> band.1 == BandEnd(peaks[k], fifths, height)
  {
    var ys := BandStart(peaks[k], fifths);
    var ye := if k == |peaks| - 1 then height else BandEnd(peaks[k], fifths, height);
    (ys, ye)
  }

  /** One detected text line: its tight bounding box and its row extent. */
  datatype TextLine = TextLine(bbox: Box, yStart: int, yEnd: int, height: int)

  /** A line is a non-empty box inside the image whose row extent agrees
      with the box. */
  predicate LineInside(line: TextLine, g: Grid) {
    && line.bbox.Inside(Width(g), |g|)
    && line.bbox.w >= 1 && line.bbox.h >= 1
    && line.yStart == line.bbox.y && line.height == line.bbox.h
    && line.yEnd == line.yStart + line.height
  }

  /** The tight box of the ink in rows ys..ye, given the row counts and the
      column counts of the band: the first and last row and the first and
      last column with more than 3 ink pixels, or no line when there is no
      such row or no such column. The contract states where the box lies and
      that its top row is the first such row; `TightLineIsTight` states the
      rest. */
  function TightLine(rows: seq<nat>, ys: nat, ye: nat, cols: seq<nat>): (line: Option<TextLine>)
    requires ys <= ye <= |rows|
    ensures line.Some? ==>
      && var b := line.value.bbox;
      && b.w >= 1 && b.h >= 1
      && line.value.yStart == b.y && line.value.height == b.h && line.value.yEnd == b.y + b.h
      && ys <= b.y && b.y + b.h <= ye && 0 <= b.x && b.x + b.w <= |cols|
      && rows[b.y] > 3 && (forall y :: ys <= y < b.y ==> rows[y] <= 3)
  {
    var minRow, maxRow := FirstAbove(rows, ys, ye, 3), LastAbove(rows, ys, ye, 3);
    var minCol, maxCol := FirstAbove(cols, 0, |cols|, 3), LastAbove(cols, 0, |cols|, 3);
    if minRow.Some? && maxRow.Some? && minCol.Some? && maxCol.Some? then
      var y, x := minRow.value, minCol.value;
      var h, w := maxRow.value - y + 1, maxCol.value - x + 1;
      Some(TextLine(Box(x, y, w, h), y, y + h, h))
    else
      None
  }

  /** The box is tight: its first and last rows and columns hold more than
      3 ink pixels and no row or column outside it does; and there is no
      line exactly when the band has no such row or no such column. */
  lemma TightLineIsTight(rows: seq<nat>, ys: nat, ye: nat, cols: seq<nat>)
    requires ys <= ye <= |rows|
    ensures var line := TightLine(rows, ys, ye, cols);
      line.Some? ==>
      && var b := line.value.bbox;
      && rows[b.y + b.h - 1] > 3
      && (forall y :: ys <= y < ye && (y < b.y || b.y + b.h <= y) ==> rows[y] <= 3)
      && cols[b.x] > 3 && cols[b.x + b.w - 1] > 3
      && (forall x :: 0 <= x < |cols| && (x < b.x || b.x + b.w <= x) ==> cols[x] <= 3)
    ensures TightLine(rows, ys, ye, cols).None? <==>
      || (forall y :: ys <= y < ye ==> rows[y] <= 3)
      || (forall x :: 0 <= x < |cols| ==> cols[x] <= 3)
  {
  }

  /** The line of the band ys..ye of the mask: a box inside the image whose
      top row is the band's first row with more than 3 ink pixels. */
  function BandLine(g: Grid, p: seq<nat>, ys: nat, ye: nat): (line: Option<TextLine>)
    requires IsGrid(g) && |p| == |g| && ys <= ye <= |g|
    ensures line.Some? ==> LineInside(line.value, g)
    ensures line.Some? ==> ys <= line.value.yStart < ye && p[line.value.yStart] > 3
    ensures line.Some? ==> forall y :: ys <= y < line.value.yStart ==> p[y] <= 3
  {
    TightLine(p, ys, ye, ColumnCounts(g, ys, ye))
  }

  /** `line` starts at the first row at or after `lo` whose count exceeds 3. */
  predicate StartsAtFirstInkRow(line: TextLine, p: seq<nat>, lo: int) {
    && 0 <= lo <= line.yStart < |p| && p[line.yStart] > 3
    && forall y :: lo <= y < line.yStart ==> p[y] <= 3
  }

  /** The candidate line of every kept peak's band, in peak order. */
  function BandLines(g: Grid, p: seq<nat>, peaks: seq<nat>, fifths: nat): (cands: seq<Option<TextLine>>)
    requires IsGrid(g) && |p| == |g|
    requires forall i :: 0 <= i < |peaks| ==> peaks[i] < |g|
    ensures |cands| == |peaks|
    ensures forall k :: 0 <= k < |cands| && cands[k].Some? ==>
      LineInside(cands[k].value, g) && StartsAtFirstInkRow(cands[k].value, p, BandStart(peaks[k], fifths))
  {
    seq(|peaks|, k requires 0 <= k < |peaks| =>
      var band := Band(peaks, k, fifths, |g|);
      BandLine(g, p, band.0, band.1))
  }

  /** Bands of later peaks start no higher, so their lines start no higher. */
  lemma BandLinesOrdered(g: Grid, p: seq<nat>, peaks: seq<nat>, fifths: nat)
    requires IsGrid(g) && |p| == |g|
    requires StrictlyIncreasing(peaks) && forall i :: 0 <= i < |peaks| ==> peaks[i] < |g|
    ensures var cands := BandLines(g, p, peaks, fifths);
      forall a, b :: 0 <= a < b < |cands| && cands[a].Some? && cands[b].Some? ==>
        cands[a].value.yStart <= cands[b].value.yStart
  {
    var cands := BandLines(g, p, peaks, fifths);
    forall a, b | 0 <= a < b < |cands| && cands[a].Some? && cands[b].Some?
      ensures cands[a].value.yStart <= cands[b].value.yStart
    {
      BandStartMonotone(peaks[a], peaks[b], fifths);
      var y := cands[b].value.yStart;
      assert StartsAtFirstInkRow(cands[a].value, p, BandStart(peaks[a], fifths));
      assert BandStart(peaks[a], fifths) <= y && p[y] > 3;
    }
  }

  /** The lines that are present, in order. */
  function Present(cands: seq<Option<TextLine>>): (lines: seq<TextLine>)
    ensures |lines| <= |cands|
    decreases |cands|
  {
    if |cands| == 0 then []
    else
      var rest := Present(cands[1..]);
      if cands[0].Some? then [cands[0].value] + rest else rest
  }

  /** The lines are exactly the present candidates. */
  lemma {:induction false} PresentMembers(cands: seq<Option<TextLine>>)
    ensures forall i :: 0 <= i < |Present(cands)| ==> Some(Present(cands)[i]) in cands
    ensures forall k :: 0 <= k < |cands| && cands[k].Some? ==> cands[k].value in Present(cands)
    decreases |cands|
  {
    if |cands| > 0 {
      var tail := cands[1..];
      PresentMembers(tail);
      assert forall k :: 1 <= k < |cands| ==> cands[k] == tail[k - 1];
      assert cands == [cands[0]] + tail;
    }
  }

  /** A lower bound on the starts of the present candidates bounds the
      starts of the lines they become. */
  lemma {:induction false} PresentAbove(cands: seq<Option<TextLine>>, bound: int)
    requires forall k :: 0 <= k < |cands| && cands[k].Some? ==> bound <= cands[k].value.yStart
    ensures forall i :: 0 <= i < |Present(cands)| ==> bound <= Present(cands)[i].yStart
    decreases |cands|
  {
    if |cands| > 0 {
      assert forall k :: 0 <= k < |cands[1..]| ==> cands[1..][k] == cands[k + 1];
      PresentAbove(cands[1..], bound);
    }
  }

  /** Dropping the absent candidates keeps the present ones in their order. */
  lemma {:induction false} PresentOrdered(cands: seq<Option<TextLine>>)
    requires forall a, b :: 0 <= a < b < |cands| && cands[a].Some? && cands[b].Some? ==>
      cands[a].value.yStart <= cands[b].value.yStart
    ensures forall i, j :: 0 <= i < j < |Present(cands)| ==> Present(cands)[i].yStart <= Present(cands)[j].yStart
    decreases |cands|
  {
    if |cands| > 0 {
      var tail := cands[1..];
      assert forall k :: 0 <= k < |tail| ==> tail[k] == cands[k + 1];
      PresentOrdered(tail);
      var rest := Present(tail);
      var lines := Present(cands);
      if cands[0].Some? {
        PresentAbove(tail, cands[0].value.yStart);
        assert lines == [cands[0].value] + rest;
        assert forall i :: 1 <= i < |lines| ==> lines[i] == rest[i - 1];
      } else {
        assert lines == rest;
      }
    }
  }

  /** The lines `find_text_lines_peaks` reports, assembled from its steps:
      nothing for an invalid mask; otherwise the present tight lines of the
      bands around the peaks that survive suppression, in peak order. */
  function TextLinesOf(g: Grid): seq<TextLine>
    requires IsGrid(g)
  {
    if !ValidateImage(Some(GridShape(g))) then []
    else
      var p := Projection(g);
      var fifths := LineHeightFifths(p);
      KeptBelow(Peaks(p), |g|, MinDistance(fifths));
      Present(BandLines(g, p, SuppressClosePeaks(Peaks(p), MinDistance(fifths)), fifths))
  }

  /** An invalid or ink-free mask yields no line. */
  lemma TextLinesOfEmpty(g: Grid)
    requires IsGrid(g)
    ensures !ValidateImage(Some(GridShape(g))) ==> TextLinesOf(g) == []
    ensures NoInk(g) ==> TextLinesOf(g) == []
  {
    if ValidateImage(Some(GridShape(g))) && NoInk(g) {
      var p := Projection(g);
      var d := MinDistance(LineHeightFifths(p));
      NoInkNoPeak(g);
      SuppressedMembers(Peaks(p), d);
      assert SuppressClosePeaks(Peaks(p), d) == [];
    }
  }

  /** The present band lines of increasing peaks lie inside the mask and
      run top to bottom. */
  lemma PresentBandLines(g: Grid, p: seq<nat>, peaks: seq<nat>, fifths: nat)
    requires IsGrid(g) && |p| == |g|
    requires StrictlyIncreasing(peaks) && forall i :: 0 <= i < |peaks| ==> peaks[i] < |g|
    ensures var lines := Present(BandLines(g, p, peaks, fifths));
      && (forall i :: 0 <= i < |lines| ==> LineInside(lines[i], g))
      && (forall i, j :: 0 <= i < j < |lines| ==> lines[i].yStart <= lines[j].yStart)
  {
    var cands := BandLines(g, p, peaks, fifths);
    var lines := Present(cands);
    BandLinesOrdered(g, p, peaks, fifths);
    PresentOrdered(cands);
    PresentMembers(cands);
    forall i | 0 <= i < |lines|
      ensures LineInside(lines[i], g)
    {
      var k :| 0 <= k < |cands| && cands[k] == Some(lines[i]);
    }
  }

  /** The assembled lines lie inside the mask and run top to bottom. */
  lemma TextLinesOfOrdered(g: Grid)
    requires IsGrid(g)
    ensures forall i :: 0 <= i < |TextLinesOf(g)| ==> LineInside(TextLinesOf(g)[i], g)
    ensures forall i, j :: 0 <= i < j < |TextLinesOf(g)| ==>
      TextLinesOf(g)[i].yStart <= TextLinesOf(g)[j].yStart
  {
    if ValidateImage(Some(GridShape(g))) {
      var p := Projection(g);
      var fifths := LineHeightFifths(p);
      var peaks := Peaks(p);
      var kept := SuppressClosePeaks(peaks, MinDistance(fifths));
      PeaksBelowIncreasing(p, |p| - 10);
      KeptBelow(peaks, |g|, MinDistance(fifths));
      SuppressedSpaced(peaks, MinDistance(fifths));
      assert TextLinesOf(g) == Present(BandLines(g, p, kept, fifths));
      PresentBandLines(g, p, kept, fifths);
    }
  }

  /** `find_text_lines_peaks`: the text lines of a 2-D binary mask, top to
      bottom: at most one per surviving peak, each the tight box of its band. */
  method FindTextLinesPeaks(g: Grid) returns (lines: seq<TextLine>)
    requires IsGrid(g)
    ensures lines == TextLinesOf(g)
    ensures !ValidateImage(Some(GridShape(g))) ==> lines == []
    ensures NoInk(g) ==> lines == []
    ensures forall i :: 0 <= i < |lines| ==> LineInside(lines[i], g)
    ensures forall i, j :: 0 <= i < j < |lines| ==> lines[i].yStart <= lines[j].yStart
  {
    TextLinesOfEmpty(g);
    TextLinesOfOrdered(g);
    if !ValidateImage(Some(GridShape(g))) {
      return [];
    }
    var p := Projection(g);
    var fifths := LineHeightFifths(p);
    var peaks := FindPeaks(p);
    var kept := SuppressClosePeaks(peaks, MinDistance(fifths));
    KeptBelow(peaks, |g|, MinDistance(fifths));
    lines := Present(BandLines(g, p, kept, fifths));
  }

  // ---------------------------------------------------------------------
  // Character candidates
  // ---------------------------------------------------------------------

  /** One character candidate: the contour, its box, its doubled area and
      the centre of the box. */
  datatype Character = Character(contour: seq<Point>, bbox: Box, twiceArea: nat, center: Point)

  /** The area, aspect and size filters for an image of height × width:
      area in [20, 0.1·H·W], w/h in [0.1, 3], w in [3, 200], h in [5, 200]. */
  predicate PassesCharacterFilters(c: Contour, height: int, width: int) {
    var b := c.box;
    && !(c.twiceArea < 40 || 5 * c.twiceArea > height * width)
    && !(b.w > 3 * b.h || 10 * b.w < b.h || b.w < 3 || b.h < 5 || b.w > 200 || b.h > 200)
  }

  function CharacterOf(c: Contour): Character {
    Character(c.points, c.box, c.twiceArea, (c.box.x + c.box.w / 2, c.box.y + c.box.h / 2))
  }

  /** The candidates passing the filters, in contour order. */
  function KeptCharacters(contours: seq<Contour>, height: int, width: int): (kept: seq<Character>)
    ensures |kept| <= |contours|
    decreases |contours|
  {
    if |contours| == 0 then []
    else
      var rest := KeptCharacters(contours[1..], height, width);
      if PassesCharacterFilters(contours[0], height, width) then [CharacterOf(contours[0])] + rest else rest
  }

  /** `c` is the record of a contour that passes the filters. */
  predicate RecordOfPassing(c: Character, contours: seq<Contour>, height: int, width: int) {
    exists j :: 0 <= j < |contours| && PassesCharacterFilters(contours[j], height, width) && c == CharacterOf(contours[j])
  }

  /** The kept candidates are exactly the records of the contours that pass
      the filters. */
  lemma {:induction false} KeptCharactersMembers(contours: seq<Contour>, height: int, width: int)
    ensures forall i :: 0 <= i < |KeptCharacters(contours, height, width)| ==>
      RecordOfPassing(KeptCharacters(contours, height, width)[i], contours, height, width)
    ensures forall j :: 0 <= j < |contours| && PassesCharacterFilters(contours[j], height, width) ==>
      CharacterOf(contours[j]) in KeptCharacters(contours, height, width)
    decreases |contours|
  {
    if |contours| > 0 {
      var tail := contours[1..];
      KeptCharactersMembers(tail, height, width);
      var kept, rest := KeptCharacters(contours, height, width), KeptCharacters(tail, height, width);
      var skip := if PassesCharacterFilters(contours[0], height, width) then 1 else 0;
      assert kept[skip..] == rest;
      forall i | 0 <= i < |kept|
        ensures RecordOfPassing(kept[i], contours, height, width)
      {
        if i < skip {
          assert PassesCharacterFilters(contours[0], height, width) && kept[i] == CharacterOf(contours[0]);
        } else {
          assert kept[i] == rest[i - skip];
          assert RecordOfPassing(rest[i - skip], tail, height, width);
          var j :| 0 <= j < |tail| && PassesCharacterFilters(tail[j], height, width) && rest[i - skip] == CharacterOf(tail[j]);
          assert tail[j] == contours[j + 1];
        }
      }
      forall j | 0 <= j < |contours| && PassesCharacterFilters(contours[j], height, width)
        ensures CharacterOf(contours[j]) in kept
      {
        if j > 0 {
          assert contours[j] == tail[j - 1];
        }
      }
    }
  }

  /** Every kept candidate meets the area, aspect and size thresholds. */
  lemma {:induction false} KeptCharactersBounded(contours: seq<Contour>, height: int, width: int)
    ensures forall i :: 0 <= i < |KeptCharacters(contours, height, width)| ==>
      CharacterBounds(KeptCharacters(contours, height, width)[i], height, width)
    decreases |contours|
  {
    if |contours| > 0 {
      KeptCharactersBounded(contours[1..], height, width);
    }
  }

  /** Reading-order key: top edge, then left edge. */
  function CharacterKey(c: Character): StableSort.Key {
    (c.bbox.y, c.bbox.x)
  }

  /** Every kept candidate meets the thresholds, and its centre is the
      floor-halved middle of its box. */
  predicate CharacterBounds(c: Character, height: int, width: int) {
    && 40 <= c.twiceArea && 5 * c.twiceArea <= height * width
    && 10 * c.bbox.w >= c.bbox.h && c.bbox.w <= 3 * c.bbox.h
    && 3 <= c.bbox.w <= 200 && 5 <= c.bbox.h <= 200
    && c.center == (c.bbox.x + c.bbox.w / 2, c.bbox.y + c.bbox.h / 2)
  }

  lemma BoundsSurviveSort(kept: seq<Character>, sorted: seq<Character>, height: int, width: int)
    requires multiset(sorted) == multiset(kept)
    requires forall i :: 0 <= i < |kept| ==> CharacterBounds(kept[i], height, width)
    ensures forall i :: 0 <= i < |sorted| ==> CharacterBounds(sorted[i], height, width)
  {
    forall i | 0 <= i < |sorted|
      ensures CharacterBounds(sorted[i], height, width)
    {
      assert sorted[i] in multiset(kept);
    }
  }

  /** `find_character_contours`: the candidates of a valid image that pass
      every filter, stably sorted by (y, x); nothing for an invalid image. */
  function FindCharacterContours(image: Option<Shape>, contours: seq<Contour>): (chars: seq<Character>)
    requires forall i :: 0 <= i < |contours| ==> NonDegenerate(contours[i].box)
    ensures !ValidateImage(image) ==> chars == []
    ensures ValidateImage(image) ==>
      forall i :: 0 <= i < |chars| ==> CharacterBounds(chars[i], image.value[0], image.value[1])
    ensures forall i, j :: 0 <= i < j < |chars| ==> StableSort.KeyLe(CharacterKey(chars[i]), CharacterKey(chars[j]))
    ensures ValidateImage(image) ==>
      multiset(chars) == multiset(KeptCharacters(contours, image.value[0], image.value[1]))
    ensures ValidateImage(image) ==> forall k ::
      StableSort.WithKey(chars, CharacterKey, k) ==
      StableSort.WithKey(KeptCharacters(contours, image.value[0], image.value[1]), CharacterKey, k)
  {
    if !ValidateImage(image) then []
    else
      var kept := KeptCharacters(contours, image.value[0], image.value[1]);
      var sorted := StableSort.Sort(kept, CharacterKey);
      KeptCharactersBounded(contours, image.value[0], image.value[1]);
      BoundsSurviveSort(kept, sorted, image.value[0], image.value[1]);
      sorted
  }

  /** The analyzer object with its cache of the last character list. The
      line list it also holds starts empty and is never written: line
      detection returns its lines without keeping them. */
  class ContourAnalyzer {
    var textLines: seq<TextLine>
    var characters: seq<Character>

    constructor ()
      ensures textLines == [] && characters == []
    {
      textLines := [];
      characters := [];
    }

    /** Computes the character candidates and, for a valid image, keeps
        them as the cache; an invalid image returns early and leaves the
        cache as it was. The cached text lines are never touched. */
    method FindCharacters(image: Option<Shape>, contours: seq<Contour>) returns (chars: seq<Character>)
      requires forall i :: 0 <= i < |contours| ==> NonDegenerate(contours[i].box)
      modifies this`characters
      ensures chars == FindCharacterContours(image, contours)
      ensures characters == if ValidateImage(image) then chars else old(characters)
      ensures textLines == old(textLines)
    {
      chars := FindCharacterContours(image, contours);
      if ValidateImage(image) {
        characters := chars;
      }
    }
  }
}

=== FILE: image_preprocessing.dfy ===
/** The preprocessing pipeline: the fixed order of its stages, the dispatch
    on strategy names (an unknown name leaves the image as it is), the
    component-size filter of the cleaning stage, the canvas geometry of
    size normalisation, and the record of the last run. The image
    primitives themselves (colour conversion, contrast enhancement,
    filters, thresholds, morphology, component labelling, resizing) are
    not modelled: they are the fields of a `Toolkit`, and every statement
    holds for whatever functions fill it. */
module ImagePreprocessing {
  import opened Common
  import opened Utils

  /** The labelling of a mask into connected components: a label per pixel
      and, per label, its pixel count (label 0 is the background). */
  datatype Labeling = Labeling(labels: seq<seq<nat>>, areas: seq<int>)

  /** The image primitives the pipeline calls, on images whose pixels are `P`
      before conversion to grey. */
  datatype Toolkit<!P> = Toolkit(
    toGray: Raster<P> -> Grid,
    clahe: Grid -> Grid,
    equalizeHist: Grid -> Grid,
    gammaLut: Grid -> Grid,
    bilateral: Grid -> Grid,
    gaussian: Grid -> Grid,
    median: Grid -> Grid,
    adaptive: Grid -> Grid,
    otsu: Grid -> Grid,
    simple: Grid -> Grid,
    open: Grid -> Grid,
    components: Grid -> Labeling,
    close: Grid -> Grid)

  // ---------------------------------------------------------------------
  // Strategy names
  // ---------------------------------------------------------------------

  datatype ContrastMethod = Clahe | HistogramEq | Gamma
  datatype NoiseMethod = Bilateral | Gaussian | Median
  datatype ThresholdMethod = Adaptive | Otsu | Simple

  function ContrastName(m: ContrastMethod): string {
    match m
    case Clahe => "clahe"
    case HistogramEq => "histogram_eq"
    case Gamma => "gamma"
  }

  function NoiseName(m: NoiseMethod): string {
    match m
    case Bilateral => "bilateral"
    case Gaussian => "gaussian"
    case Median => "median"
  }

  function ThresholdName(m: ThresholdMethod): string {
    match m
    case Adaptive => "adaptive"
    case Otsu => "otsu"
    case Simple => "simple"
  }

  /** The contrast strategy a name selects; any other name selects none. */
  function ParseContrast(name: string): (m: Option<ContrastMethod>)
    ensures m.Some? ==> ContrastName(m.value) == name
  {
    if name == "clahe" then Some(Clahe)
    else if name == "histogram_eq" then Some(HistogramEq)
    else if name == "gamma" then Some(Gamma)
    else None
  }

  function ParseNoise(name: string): (m: Option<NoiseMethod>)
    ensures m.Some? ==> NoiseName(m.value) == name
  {
    if name == "bilateral" then Some(Bilateral)
    else if name == "gaussian" then Some(Gaussian)
    else if name == "median" then Some(Median)
    else None
  }

  function ParseThreshold(name: string): (m: Option<ThresholdMethod>)
    ensures m.Some? ==> ThresholdName(m.value) == name
  {
    if name == "adaptive" then Some(Adaptive)
    else if name == "otsu" then Some(Otsu)
    else if name == "simple" then Some(Simple)
    else None
  }

  /** Every strategy is selected by its own name and by no other: parsing
      and naming are inverse, and an unknown name is exactly one that no
      strategy carries. */
  lemma StrategyNamesRoundTrip()
    ensures forall m :: ParseContrast(ContrastName(m)) == Some(m)
    ensures forall m :: ParseNoise(NoiseName(m)) == Some(m)
    ensures forall m :: ParseThreshold(ThresholdName(m)) == Some(m)
    ensures forall name :: ParseContrast(name).None? <==> forall m :: ContrastName(m) != name
    ensures forall name :: ParseNoise(name).None? <==> forall m :: NoiseName(m) != name
    ensures forall name :: ParseThreshold(name).None? <==> forall m :: ThresholdName(m) != name
  {
    forall name: string | ParseContrast(name).None?
      ensures forall m :: ContrastName(m) != name
    {
      forall m ensures ContrastName(m) != name {
        assert ParseContrast(ContrastName(m)) == Some(m);
      }
    }
    forall name: string | ParseNoise(name).None?
      ensures forall m :: NoiseName(m) != name
    {
      forall m ensures NoiseName(m) != name {
        assert ParseNoise(NoiseName(m)) == Some(m);
      }
    }
    forall name: string | ParseThreshold(name).None?
      ensures forall m :: ThresholdName(m) != name
    {
      forall m ensures ThresholdName(m) != name {
        assert ParseThreshold(ThresholdName(m)) == Some(m);
      }
    }
  }

  function ApplyContrast<P>(tk: Toolkit<P>, m: ContrastMethod, g: Grid): Grid {
    match m
    case Clahe => tk.clahe(g)
    case HistogramEq => tk.equalizeHist(g)
    case Gamma => tk.gammaLut(g)
  }

  function ApplyNoise<P>(tk: Toolkit<P>, m: NoiseMethod, g: Grid): Grid {
    match m
    case Bilateral => tk.bilateral(g)
    case Gaussian => tk.gaussian(g)
    case Median => tk.median(g)
  }

  function ApplyThresholdMethod<P>(tk: Toolkit<P>, m: ThresholdMethod, g: Grid): Grid {
    match m
    case Adaptive => tk.adaptive(g)
    case Otsu => tk.otsu(g)
    case Simple => tk.simple(g)
  }

  /** `enhance_contrast`: the named strategy, or the image itself for an
      unknown name. */
  function EnhanceContrast<P>(tk: Toolkit<P>, g: Grid, name: string): (r: Grid)
    ensures (forall m :: ContrastName(m) != name) ==> r == g
    ensures forall m :: ContrastName(m) == name ==> r == ApplyContrast(tk, m, g)
  {
    StrategyNamesRoundTrip();
    match ParseContrast(name)
    case None => g
    case Some(m) => ApplyContrast(tk, m, g)
  }

  /** `reduce_noise`: the named filter, or the image itself for an unknown name. */
  function ReduceNoise<P>(tk: Toolkit<P>, g: Grid, name: string): (r: Grid)
    ensures (forall m :: NoiseName(m) != name) ==> r == g
    ensures forall m :: NoiseName(m) == name ==> r == ApplyNoise(tk, m, g)
  {
    StrategyNamesRoundTrip();
    match ParseNoise(name)
    case None => g
    case Some(m) => ApplyNoise(tk, m, g)
  }

  /** `apply_threshold`: the named binarisation, or the image itself for an
      unknown name. */
  function ApplyThreshold<P>(tk: Toolkit<P>, g: Grid, name: string): (r: Grid)
    ensures (forall m :: ThresholdName(m) != name) ==> r == g
    ensures forall m :: ThresholdName(m) == name ==> r == ApplyThresholdMethod(tk, m, g)
  {
    StrategyNamesRoundTrip();
    match ParseThreshold(name)
    case None => g
    case Some(m) => ApplyThresholdMethod(tk, m, g)
  }

  // ---------------------------------------------------------------------
  // Component filter
  // ---------------------------------------------------------------------

  /** The minimum pixel count of a component that survives cleaning. */
  const MinComponentSize := 10

  /** Pixel of the cleaned mask: ink exactly when its label is a foreground
      label of the labelling (1 ≤ label < number of labels) whose component
      has at least `MinComponentSize` pixels. */
  function SurvivorPixel(component: nat, areas: seq<int>): int {
    if 1 <= component < |areas| && areas[component] >= MinComponentSize then 255 else 0
  }

  /** The component filter stated pixel by pixel. */
  function SurvivorMask(lab: Labeling): Grid {
    seq(|lab.labels|, y requires 0 <= y < |lab.labels| =>
      seq(|lab.labels[y]|, x requires 0 <= x < |lab.labels[y]| => SurvivorPixel(lab.labels[y][x], lab.areas)))
  }

  /** `m` has the labels' shape and holds, at every pixel, 255 for a
      foreground component of at least `MinComponentSize` pixels and 0
      otherwise. */
  predicate StampsSurvivors(m: Grid, lab: Labeling) {
    && |m| == |lab.labels|
    && (forall y :: 0 <= y < |m| ==> |m[y]| == |lab.labels[y]|)
    && forall y, x :: 0 <= y < |m| && 0 <= x < |m[y]| ==>
      m[y][x] == SurvivorPixel(lab.labels[y][x], lab.areas)
  }

  /** The component filter has exactly one result: `SurvivorMask`. */
  lemma SurvivorMaskOnly(lab: Labeling)
    ensures StampsSurvivors(SurvivorMask(lab), lab)
    ensures forall m :: StampsSurvivors(m, lab) ==> m == SurvivorMask(lab)
  {
    var mask := SurvivorMask(lab);
    forall m | StampsSurvivors(m, lab)
      ensures m == mask
    {
      forall y | 0 <= y < |m|
        ensures m[y] == mask[y]
      {
        assert forall x :: 0 <= x < |m[y]| ==> m[y][x] == mask[y][x];
      }
    }
  }

  /** The mask with every pixel of label `i` set to 255. */
  function StampLabel(out: Grid, labels: seq<seq<nat>>, i: nat): (r: Grid)
    requires |out| == |labels| && forall y :: 0 <= y < |out| ==> |out[y]| == |labels[y]|
    ensures |r| == |labels| && forall y :: 0 <= y < |r| ==> |r[y]| == |labels[y]|
    ensures forall y, x :: 0 <= y < |r| && 0 <= x < |r[y]| ==>
      r[y][x] == if labels[y][x] == i then 255 else out[y][x]
  {
    seq(|out|, y requires 0 <= y < |out| =>
      seq(|out[y]|, x requires 0 <= x < |out[y]| => if labels[y][x] == i then 255 else out[y][x]))
  }

  /** The stamping loop of `clean_binary_image`: a zero mask shaped like the
      labels, then, label by label from 1, every pixel of a large enough
      component set to 255. */
  method StampComponents(lab: Labeling) returns (out: Grid)
    ensures |out| == |lab.labels|
    ensures forall y :: 0 <= y < |out| ==> |out[y]| == |lab.labels[y]|
    ensures forall y, x :: 0 <= y < |out| && 0 <= x < |out[y]| ==>
      out[y][x] == SurvivorPixel(lab.labels[y][x], lab.areas)
    ensures forall y, x :: 0 <= y < |out| && 0 <= x < |out[y]| ==> out[y][x] == 0 || out[y][x] == 255
    ensures forall y, x :: 0 <= y < |out| && 0 <= x < |out[y]| && lab.labels[y][x] == 0 ==> out[y][x] == 0
    ensures out == SurvivorMask(lab)
  {
    var labels, areas := lab.labels, lab.areas;
    out := seq(|labels|, y requires 0 <= y < |labels| => seq(|labels[y]|, x => 0));
    var i := 1;
    while i < |areas|
      invariant 1 <= i <= Max(1, |areas|)
      invariant |out| == |labels| && forall y :: 0 <= y < |out| ==> |out[y]| == |labels[y]|
      invariant forall y, x :: 0 <= y < |out| && 0 <= x < |out[y]| ==>
        out[y][x] == if 1 <= labels[y][x] < i && areas[labels[y][x]] >= MinComponentSize then 255 else 0
    {
      if areas[i] >= MinComponentSize {
        out := StampLabel(out, labels, i);
      }
      i := i + 1;
    }
    var mask := SurvivorMask(lab);
    forall y | 0 <= y < |out|
      ensures out[y] == mask[y]
    {
      assert forall x :: 0 <= x < |out[y]| ==> out[y][x] == mask[y][x];
    }
  }

  /** `clean_binary_image`: median blur and opening, the component filter
      on the labelling of the result, then closing. Whatever mask stamps
      exactly the surviving components of the opened image, the result is
      its closing. */
  function CleanBinaryImage<P>(tk: Toolkit<P>, g: Grid): (r: Grid)
    ensures forall m :: StampsSurvivors(m, tk.components(tk.open(tk.median(g)))) ==> r == tk.close(m)
  {
    var cleaned := tk.open(tk.median(g));
    SurvivorMaskOnly(tk.components(cleaned));
    tk.close(SurvivorMask(tk.components(cleaned)))
  }

  // ---------------------------------------------------------------------
  // The pipeline
  // ---------------------------------------------------------------------

  /** One stage of the pipeline. */
  datatype Stage = Contrast(c: ContrastMethod) | Denoise(n: NoiseMethod) | Binarize(t: ThresholdMethod) | Clean

  /** The stages `preprocess` runs on the grey image, in order. */
  const DefaultStages: seq<Stage> := [Contrast(Clahe), Denoise(Bilateral), Binarize(Adaptive), Clean]

  function RunStage<P>(tk: Toolkit<P>, s: Stage, g: Grid): Grid {
    match s
    case Contrast(m) => ApplyContrast(tk, m, g)
    case Denoise(m) => ApplyNoise(tk, m, g)
    case Binarize(m) => ApplyThresholdMethod(tk, m, g)
    case Clean => CleanBinaryImage(tk, g)
  }

  /** The stages applied left to right, each to the output of the one before. */
  function RunStages<P>(tk: Toolkit<P>, stages: seq<Stage>, g: Grid): Grid
    decreases |stages|
  {
    if |stages| == 0 then g else RunStages(tk, stages[1..], RunStage(tk, stages[0], g))
  }

  /** What the pipeline keeps between calls: the image loaded last, and the
      result of the last successful run. */
  datatype PreprocessorState<P> = PreprocessorState(original: Option<Raster<P>>, processed: Option<Grid>)

  /** The state of a fresh preprocessor. */
  function InitialState<P>(): (st: PreprocessorState<P>)
    ensures st.original.None? && st.processed.None?
  {
    PreprocessorState(None, None)
  }

  /** The pipeline as `preprocess` spells it: contrast with its default name,
      denoise by "bilateral", threshold by "adaptive", then clean. */
  function ProcessGray<P>(tk: Toolkit<P>, gray: Grid): (r: Grid)
    ensures r == RunStages(tk, DefaultStages, gray)
  {
    var processed := EnhanceContrast(tk, gray, "clahe");
    var processed := ReduceNoise(tk, processed, "bilateral");
    var processed := ApplyThreshold(tk, processed, "adaptive");
    CleanBinaryImage(tk, processed)
  }

  /** `preprocess` given the image the loader produced (None when loading
      failed): the loaded image is always recorded; an invalid one yields no
      result and leaves the last result in place; a valid one is converted
      to grey, run through the stages and recorded as the result. */
  function Preprocess<P>(tk: Toolkit<P>, st: PreprocessorState<P>, loaded: Option<Raster<P>>): (out: (PreprocessorState<P>, Option<Grid>))
    ensures out.0.original == loaded
    ensures !ValidateImage(ShapeOf(loaded)) ==> out.1.None? && out.0.processed == st.processed
    ensures ValidateImage(ShapeOf(loaded)) ==>
      && out.1 == Some(RunStages(tk, DefaultStages, tk.toGray(loaded.value)))
      && out.0.processed == out.1
  {
    var st := st.(original := loaded);
    if !ValidateImage(ShapeOf(loaded)) then (st, None)
    else
      var processed := ProcessGray(tk, tk.toGray(loaded.value));
      (st.(processed := Some(processed)), Some(processed))
  }

  // ---------------------------------------------------------------------
  // Size normalisation
  // ---------------------------------------------------------------------

  /** The target size `normalize_image` uses when the caller gives none:
      800 wide and 600 high. */
  const DefaultTargetWidth: int := 800
  const DefaultTargetHeight: int := 600

  /** Where the resized image goes on the canvas: its size and the offsets
      of its top-left corner. */
  datatype Placement = Placement(newWidth: int, newHeight: int, yOffset: int, xOffset: int)

  /** The geometry of `normalize_image` for an image of height × width and
      a target of targetWidth × targetHeight: the aspect-preserving size and
      the centring offsets, or the exception raised on the way (a zero side
      divides by zero; a non-positive new size is refused by the resize). */
  function NormalizeGeometry(height: nat, width: nat, targetWidth: int, targetHeight: int): (r: Outcome<Placement>)
    ensures width == 0 || height == 0 <==> r == Raises(ZeroDivision)
    ensures r.Returns? ==>
      && var pl := r.value;
      && 1 <= pl.newWidth <= targetWidth && 1 <= pl.newHeight <= targetHeight
      && (pl.newWidth == targetWidth || pl.newHeight == targetHeight)
      && 0 <= pl.yOffset && pl.yOffset + pl.newHeight <= targetHeight
      && 0 <= pl.xOffset && pl.xOffset + pl.newWidth <= targetWidth
      && 0 <= (targetHeight - pl.newHeight) - 2 * pl.yOffset <= 1
      && 0 <= (targetWidth - pl.newWidth) - 2 * pl.xOffset <= 1
    ensures r.Raises? && width > 0 && height > 0 ==> r.fault == EmptyResize
    ensures width > 0 && height > 0 ==>
      (r.Returns? <==>
        1 <= ScaledSize(width, height, targetWidth, targetHeight).0 &&
        1 <= ScaledSize(width, height, targetWidth, targetHeight).1)
    ensures r.Returns? && targetHeight * width < targetWidth * height ==>
      r.value.newHeight == targetHeight && TruncQuotient(r.value.newWidth, width * targetHeight, height)
    ensures r.Returns? && targetWidth * height <= targetHeight * width ==>
      r.value.newWidth == targetWidth && TruncQuotient(r.value.newHeight, height * targetWidth, width)
  {
    if width == 0 || height == 0 then Raises(ZeroDivision)
    else
      var size := ScaledSize(width, height, targetWidth, targetHeight);
      if size.0 <= 0 || size.1 <= 0 then Raises(EmptyResize)
      else Returns(Placement(size.0, size.1, (targetHeight - size.1) / 2, (targetWidth - size.0) / 2))
  }

  /** Any real image fits a target at least one pixel in each direction,
      unless the aspect-preserving size rounds a side down to zero. */
  lemma NormalizeGeometryReturns(height: nat, width: nat, targetWidth: int, targetHeight: int)
    requires height > 0 && width > 0 && targetWidth >= width && targetHeight >= height
    ensures NormalizeGeometry(height, width, targetWidth, targetHeight).Returns?
  {
    var size := ScaledSize(width, height, targetWidth, targetHeight);
    if targetHeight * width < targetWidth * height {
      TruncDivAtLeast(width * targetHeight, height, width);
    } else {
      TruncDivAtLeast(height * targetWidth, width, height);
    }
  }

  /** The block is a well-formed raster of exactly the placement's size. */
  predicate FitsPlacement<P>(block: Raster<P>, pl: Placement) {
    block.WellFormed() && block.height == pl.newHeight && block.width == pl.newWidth
  }

  /** The canvas of targetHeight × targetWidth pixels holding `block` at the
      placement and `zero` everywhere else. */
  function Paste<P>(block: Raster<P>, pl: Placement, targetWidth: nat, targetHeight: nat, zero: P): (canvas: Raster<P>)
    requires FitsPlacement(block, pl)
    requires 0 <= pl.yOffset && pl.yOffset + pl.newHeight <= targetHeight
    requires 0 <= pl.xOffset && pl.xOffset + pl.newWidth <= targetWidth
    ensures canvas.WellFormed() && canvas.height == targetHeight && canvas.width == targetWidth
    ensures canvas.channels == block.channels
    ensures forall y, x :: 0 <= y < targetHeight && 0 <= x < targetWidth ==>
      canvas.rows[y][x] ==
        if pl.yOffset <= y < pl.yOffset + pl.newHeight && pl.xOffset <= x < pl.xOffset + pl.newWidth
        then block.rows[y - pl.yOffset][x - pl.xOffset]
        else zero
  {
    var rows := seq(targetHeight, y requires 0 <= y < targetHeight =>
      seq(targetWidth, x requires 0 <= x < targetWidth =>
        if pl.yOffset <= y < pl.yOffset + pl.newHeight && pl.xOffset <= x < pl.xOffset + pl.newWidth
        then block.rows[y - pl.yOffset][x - pl.xOffset]
        else zero));
    Raster(targetHeight, targetWidth, block.channels, rows)
  }

  /** `normalize_image`: the geometry, the resize (a primitive, given as
      `resize`), and the paste onto a zero canvas with the resized image's
      channel layout. A resize result of another size cannot be pasted. */
  function NormalizeImage<P>(image: Raster<P>, targetWidth: int, targetHeight: int,
                             resize: (Raster<P>, int, int) -> Raster<P>, zero: P): (r: Outcome<Raster<P>>)
    ensures image.width == 0 || image.height == 0 ==> r == Raises(ZeroDivision)
    ensures NormalizeGeometry(image.height, image.width, targetWidth, targetHeight).Raises? ==>
      r == Raises(NormalizeGeometry(image.height, image.width, targetWidth, targetHeight).fault)
    ensures NormalizeGeometry(image.height, image.width, targetWidth, targetHeight).Returns? ==>
      var pl := NormalizeGeometry(image.height, image.width, targetWidth, targetHeight).value;
      (r.Returns? <==> FitsPlacement(resize(image, pl.newWidth, pl.newHeight), pl))
      && (r.Raises? ==> r.fault == ShapeMismatch)
    ensures r.Returns? ==>
      && r.value.WellFormed() && r.value.height == targetHeight && r.value.width == targetWidth
      && NormalizeGeometry(image.height, image.width, targetWidth, targetHeight).Returns?
      && var pl := NormalizeGeometry(image.height, image.width, targetWidth, targetHeight).value;
      && var block := resize(image, pl.newWidth, pl.newHeight);
      && block.WellFormed() && block.height == pl.newHeight && block.width == pl.newWidth
      && r.value.channels == block.channels
      && forall y, x :: 0 <= y < targetHeight && 0 <= x < targetWidth ==>
        r.value.rows[y][x] ==
          if pl.yOffset <= y < pl.yOffset + pl.newHeight && pl.xOffset <= x < pl.xOffset + pl.newWidth
          then block.rows[y - pl.yOffset][x - pl.xOffset]
          else zero
  {
    match NormalizeGeometry(image.height, image.width, targetWidth, targetHeight)
    case Raises(f) => Raises(f)
    case Returns(pl) =>
      var block := resize(image, pl.newWidth, pl.newHeight);
      if !FitsPlacement(block, pl) then Raises(ShapeMismatch)
      else Returns(Paste(block, pl, targetWidth, targetHeight, zero))
  }

  // ---------------------------------------------------------------------
  // Run information
  // ---------------------------------------------------------------------

  /** What `get_preprocessing_info` reports: sizes as (width, height) and the
      number of array dimensions of each image. */
  datatype PreprocessingInfo = PreprocessingInfo(
    originalSize: (nat, nat), processedSize: (nat, nat), originalDims: nat, processedDims: nat)

  /** Nothing unless both images are recorded; otherwise their sizes and
      dimension counts. */
  function GetPreprocessingInfo<P>(st: PreprocessorState<P>): (info: Option<PreprocessingInfo>)
    ensures info.Some? <==> st.original.Some? && st.processed.Some?
    ensures info.Some? ==>
      && info.value.originalSize == (st.original.value.width, st.original.value.height)
      && info.value.processedSize == (Width(st.processed.value), |st.processed.value|)
      && info.value.originalDims == |st.original.value.Shape()|
      && info.value.processedDims == 2
  {
    if st.original.None? || st.processed.None? then None
    else
      var orig, proc := st.original.value, st.processed.value;
      Some(PreprocessingInfo((orig.width, orig.height), (Width(proc), |proc|), |orig.Shape()|, |GridShape(proc)|))
  }

  /** After a successful run the information describes the loaded image and
      the result just returned; after a failed run on a fresh preprocessor
      there is none. */
  lemma InfoAfterPreprocess<P>(tk: Toolkit<P>, st: PreprocessorState<P>, loaded: Option<Raster<P>>)
    ensures var out := Preprocess(tk, st, loaded);
      out.1.Some? ==>
        && GetPreprocessingInfo(out.0).Some?
        && GetPreprocessingInfo(out.0).value.originalSize == (loaded.value.width, loaded.value.height)
        && GetPreprocessingInfo(out.0).value.processedSize == (Width(out.1.value), |out.1.value|)
    ensures Preprocess(tk, InitialState(), loaded).1.None? ==>
      GetPreprocessingInfo(Preprocess(tk, InitialState(), loaded).0).None?
  {
  }
}

=== FILE: layout_detection.dfy ===
/** The layout detector: text regions of a binary mask, filtered by area and
    aspect and ordered top to bottom, and the crop of an image to the padded
    union of the cached regions. The morphological closing and dilation that
    precede contour extraction, and the contour primitives themselves, are
    not modelled; their results arrive as `Contour` records. */
module LayoutDetection {
  import opened Common
  import opened Utils
  import StableSort

  /** One text region: its bounding box and its doubled contour area. */
  datatype TextRegion = TextRegion(bbox: Box, twiceArea: nat)

  /** The region filters: area at least 200, aspect w / h within [0.1, 15]. */
  predicate PassesRegionFilters(c: Contour) {
    var b := c.box;
    && !(c.twiceArea < 400)
    && !(b.w > 15 * b.h || 10 * b.w < b.h)
  }

  function RegionOf(c: Contour): TextRegion {
    TextRegion(c.box, c.twiceArea)
  }

  /** The regions passing the filters, in contour order. */
  function KeptRegions(contours: seq<Contour>): (kept: seq<TextRegion>)
    ensures |kept| <= |contours|
    decreases |contours|
  {
    if |contours| == 0 then []
    else
      var rest := KeptRegions(contours[1..]);
      if PassesRegionFilters(contours[0]) then [RegionOf(contours[0])] + rest else rest
  }

  /** `r` is the region of a contour that passes the filters. */
  predicate RegionOfPassing(r: TextRegion, contours: seq<Contour>) {
    exists j :: 0 <= j < |contours| && PassesRegionFilters(contours[j]) && r == RegionOf(contours[j])
  }

  /** The kept regions are exactly the regions of the contours that pass the
      filters. */
  lemma {:induction false} KeptRegionsMembers(contours: seq<Contour>)
    ensures forall i :: 0 <= i < |KeptRegions(contours)| ==> RegionOfPassing(KeptRegions(contours)[i], contours)
    ensures forall j :: 0 <= j < |contours| && PassesRegionFilters(contours[j]) ==> RegionOf(contours[j]) in KeptRegions(contours)
    decreases |contours|
  {
    if |contours| > 0 {
      var tail := contours[1..];
      KeptRegionsMembers(tail);
      var kept, rest := KeptRegions(contours), KeptRegions(tail);
      var skip := if PassesRegionFilters(contours[0]) then 1 else 0;
      assert kept[skip..] == rest;
      forall i | 0 <= i < |kept|
        ensures RegionOfPassing(kept[i], contours)
      {
        if i < skip {
          assert PassesRegionFilters(contours[0]) && kept[i] == RegionOf(contours[0]);
        } else {
          assert kept[i] == rest[i - skip];
          assert RegionOfPassing(rest[i - skip], tail);
          var j :| 0 <= j < |tail| && PassesRegionFilters(tail[j]) && rest[i - skip] == RegionOf(tail[j]);
          assert tail[j] == contours[j + 1];
        }
      }
      forall j | 0 <= j < |contours| && PassesRegionFilters(contours[j])
        ensures RegionOf(contours[j]) in kept
      {
        if j > 0 {
          assert contours[j] == tail[j - 1];
        }
      }
    }
  }

  /** Sort key: the top edge alone, as the one-element key `(y, 0)`. */
  function RegionKey(r: TextRegion): StableSort.Key {
    (r.bbox.y, 0)
  }

  /** What every reported region satisfies. */
  predicate RegionBounds(r: TextRegion) {
    && 400 <= r.twiceArea
    && r.bbox.w <= 15 * r.bbox.h && 10 * r.bbox.w >= r.bbox.h
  }

  /** Every kept region meets the area and aspect thresholds. */
  lemma {:induction false} KeptRegionsBounded(contours: seq<Contour>)
    ensures forall i :: 0 <= i < |KeptRegions(contours)| ==> RegionBounds(KeptRegions(contours)[i])
    decreases |contours|
  {
    if |contours| > 0 {
      KeptRegionsBounded(contours[1..]);
    }
  }

  /** `find_text_regions`: the regions of a valid image passing the filters,
      stably sorted by top edge; nothing for an invalid image. */
  function FindTextRegions(image: Option<Shape>, contours: seq<Contour>): (regions: seq<TextRegion>)
    requires forall i :: 0 <= i < |contours| ==> NonDegenerate(contours[i].box)
    ensures !ValidateImage(image) ==> regions == []
    ensures forall i :: 0 <= i < |regions| ==> RegionBounds(regions[i])
    ensures forall i, j :: 0 <= i < j < |regions| ==> regions[i].bbox.y <= regions[j].bbox.y
    ensures ValidateImage(image) ==> multiset(regions) == multiset(KeptRegions(contours))
    ensures ValidateImage(image) ==> forall k ::
      StableSort.WithKey(regions, RegionKey, k) == StableSort.WithKey(KeptRegions(contours), RegionKey, k)
  {
    if !ValidateImage(image) then []
    else
      var kept := KeptRegions(contours);
      var sorted := StableSort.Sort(kept, RegionKey);
      KeptRegionsBounded(contours);
      forall i | 0 <= i < |sorted|
        ensures RegionBounds(sorted[i])
      {
        assert sorted[i] in multiset(kept);
      }
      assert forall i, j :: 0 <= i < j < |sorted| ==> StableSort.KeyLe(RegionKey(sorted[i]), RegionKey(sorted[j]));
      sorted
  }

  // ---------------------------------------------------------------------
  // Text-area crop
  // ---------------------------------------------------------------------

  /** A Python slice bound for a sequence of length n: a negative bound
      counts from the end and is clamped at 0, a large one is clamped at n. */
  function SliceIndex(i: int, n: nat): (j: nat)
    ensures j <= n
    ensures 0 <= i <= n ==> j == i
    ensures i < 0 && i + n < 0 ==> j == 0
    ensures i < 0 && 0 <= i + n ==> j == i + n
    ensures n < i ==> j == n
  {
    if i < 0 then Max(0, i + n) else Min(i, n)
  }

  /** The half-open range `s[lo:hi]` selects: start, and an end never below it. */
  function SliceRange(lo: int, hi: int, n: nat): (range: (nat, nat))
    ensures range.0 <= range.1 <= n
    ensures range.0 == SliceIndex(lo, n)
    ensures SliceIndex(lo, n) <= SliceIndex(hi, n) ==> range.1 == SliceIndex(hi, n)
    ensures SliceIndex(hi, n) < SliceIndex(lo, n) ==> range.1 == range.0
  {
    var a, b := SliceIndex(lo, n), SliceIndex(hi, n);
    (a, Max(a, b))
  }

  /** The union box of the regions as its four edges: least left and top
      edge, greatest right and bottom edge. */
  datatype Edges = Edges(minX: int, minY: int, maxX: int, maxY: int)

  /** The smallest box containing every region box: each edge is reached by
      some region and no region crosses it. The source takes `min` and `max`
      over the four edge lists; folding the regions one at a time gives the
      same four numbers. */
  function UnionEdges(regions: seq<TextRegion>): (e: Edges)
    requires |regions| > 0
    ensures forall i :: 0 <= i < |regions| ==>
      && e.minX <= regions[i].bbox.x && e.minY <= regions[i].bbox.y
      && regions[i].bbox.x + regions[i].bbox.w <= e.maxX && regions[i].bbox.y + regions[i].bbox.h <= e.maxY
    ensures exists i :: 0 <= i < |regions| && regions[i].bbox.x == e.minX
    ensures exists i :: 0 <= i < |regions| && regions[i].bbox.y == e.minY
    ensures exists i :: 0 <= i < |regions| && regions[i].bbox.x + regions[i].bbox.w == e.maxX
    ensures exists i :: 0 <= i < |regions| && regions[i].bbox.y + regions[i].bbox.h == e.maxY
    decreases |regions|
  {
    var b := regions[0].bbox;
    if |regions| == 1 then Edges(b.x, b.y, b.x + b.w, b.y + b.h)
    else
      var tail := regions[1..];
      var rest := UnionEdges(tail);
      assert forall i :: 1 <= i < |regions| ==> regions[i] == tail[i - 1];
      Edges(Min(b.x, rest.minX), Min(b.y, rest.minY), Max(b.x + b.w, rest.maxX), Max(b.y + b.h, rest.maxY))
  }

  /** The crop window in pixel indices: rows rowLo..rowHi, columns colLo..colHi. */
  datatype Window = Window(rowLo: nat, rowHi: nat, colLo: nat, colHi: nat)
  {
    /** The box lies within the window's rows and columns. */
    predicate Contains(b: Box) {
      rowLo <= b.y && b.y + b.h <= rowHi && colLo <= b.x && b.x + b.w <= colHi
    }

    /** The part of the box inside a width × height image lies within the
        window's rows and columns. */
    predicate ContainsClipped(b: Box, width: nat, height: nat) {
      && rowLo <= Max(0, b.y) && Min(height, b.y + b.h) <= rowHi
      && colLo <= Max(0, b.x) && Min(width, b.x + b.w) <= colHi
    }
  }

  /** The box with edges `e` grown by `padding` on every side, clipped to the
      image (`max(0, ·)` for the near edges, `min(size, ·)` for the far ones),
      and then read as Python slice bounds. */
  function PaddedWindow(e: Edges, padding: int, height: nat, width: nat): (win: Window)
    ensures win.rowLo <= win.rowHi <= height && win.colLo <= win.colHi <= width
  {
    var minX, minY := Max(0, e.minX - padding), Max(0, e.minY - padding);
    var maxX, maxY := Min(width, e.maxX + padding), Min(height, e.maxY + padding);
    var rows, cols := SliceRange(minY, maxY, height), SliceRange(minX, maxX, width);
    Window(rows.0, rows.1, cols.0, cols.1)
  }

  /** Slicing never moves the window's near edges past the clipped padded
      box, nor its far edges before it. */
  lemma PaddedWindowBounds(e: Edges, padding: int, height: nat, width: nat)
    ensures PaddedWindow(e, padding, height, width).rowLo <= Max(0, e.minY - padding)
    ensures PaddedWindow(e, padding, height, width).colLo <= Max(0, e.minX - padding)
    ensures Min(height, e.maxY + padding) <= PaddedWindow(e, padding, height, width).rowHi
    ensures Min(width, e.maxX + padding) <= PaddedWindow(e, padding, height, width).colHi
  {
  }

  /** For a box inside the image and non-negative padding, the clipped
      bounds are already in slice range, so slicing changes nothing. */
  lemma PaddedWindowExact(e: Edges, padding: int, height: nat, width: nat)
    requires padding >= 0
    requires 0 <= e.minY <= e.maxY <= height && 0 <= e.minX <= e.maxX <= width
    ensures PaddedWindow(e, padding, height, width) ==
      Window(Max(0, e.minY - padding), Min(height, e.maxY + padding),
             Max(0, e.minX - padding), Min(width, e.maxX + padding))
  {
  }

  /** The union box of the regions, padded, clipped and sliced. */
  function RoiWindow(regions: seq<TextRegion>, padding: int, height: nat, width: nat): (win: Window)
    requires |regions| > 0
    ensures win.rowLo <= win.rowHi <= height && win.colLo <= win.colHi <= width
  {
    PaddedWindow(UnionEdges(regions), padding, height, width)
  }

  /** With regions inside the image and non-negative padding, the window is
      exactly the padded union box clipped to the image: the slice bounds
      are already in range, so slicing changes nothing. */
  lemma RoiWindowExact(regions: seq<TextRegion>, padding: int, height: nat, width: nat)
    requires |regions| > 0 && padding >= 0
    requires forall i :: 0 <= i < |regions| ==> regions[i].bbox.Inside(width, height) && NonDegenerate(regions[i].bbox)
    ensures RoiWindow(regions, padding, height, width).rowLo == Max(0, UnionEdges(regions).minY - padding)
    ensures RoiWindow(regions, padding, height, width).rowHi == Min(height, UnionEdges(regions).maxY + padding)
    ensures RoiWindow(regions, padding, height, width).colLo == Max(0, UnionEdges(regions).minX - padding)
    ensures RoiWindow(regions, padding, height, width).colHi == Min(width, UnionEdges(regions).maxX + padding)
  {
    UnionEdgesInside(regions, height, width);
    PaddedWindowExact(UnionEdges(regions), padding, height, width);
  }

  /** With non-negative padding, the window contains the in-image part of
      every cached region box, wherever the boxes lie; a box wholly inside
      the image is contained whole. */
  lemma RoiWindowCoversRegions(regions: seq<TextRegion>, padding: int, height: nat, width: nat)
    requires |regions| > 0 && padding >= 0
    ensures forall i :: 0 <= i < |regions| ==>
      RoiWindow(regions, padding, height, width).ContainsClipped(regions[i].bbox, width, height)
    ensures forall i :: 0 <= i < |regions| && regions[i].bbox.Inside(width, height) ==>
      RoiWindow(regions, padding, height, width).Contains(regions[i].bbox)
  {
    var win := RoiWindow(regions, padding, height, width);
    var e := UnionEdges(regions);
    PaddedWindowBounds(e, padding, height, width);
    forall i | 0 <= i < |regions|
      ensures win.ContainsClipped(regions[i].bbox, width, height)
    {
      var b := regions[i].bbox;
      assert e.minY <= b.y && b.y + b.h <= e.maxY && e.minX <= b.x && b.x + b.w <= e.maxX;
    }
  }

  /** The union box of regions inside the image lies inside the image. */
  lemma UnionEdgesInside(regions: seq<TextRegion>, height: nat, width: nat)
    requires |regions| > 0
    requires forall i :: 0 <= i < |regions| ==> regions[i].bbox.Inside(width, height) && NonDegenerate(regions[i].bbox)
    ensures 0 <= UnionEdges(regions).minY <= UnionEdges(regions).maxY <= height
    ensures 0 <= UnionEdges(regions).minX <= UnionEdges(regions).maxX <= width
  {
    var e := UnionEdges(regions);
    assert regions[0].bbox.Inside(width, height) && NonDegenerate(regions[0].bbox);
    var i0 :| 0 <= i0 < |regions| && regions[i0].bbox.y == e.minY;
    var i1 :| 0 <= i1 < |regions| && regions[i1].bbox.y + regions[i1].bbox.h == e.maxY;
    var i2 :| 0 <= i2 < |regions| && regions[i2].bbox.x == e.minX;
    var i3 :| 0 <= i3 < |regions| && regions[i3].bbox.x + regions[i3].bbox.w == e.maxX;
    assert regions[i0].bbox.Inside(width, height) && regions[i1].bbox.Inside(width, height);
    assert regions[i2].bbox.Inside(width, height) && regions[i3].bbox.Inside(width, height);
  }

  /** `r` is the part of `image` in the window: same channels, the window's
      size, and pixel (y, x) of `r` is pixel (rowLo + y, colLo + x). */
  predicate CropOf<P(==)>(r: Raster<P>, image: Raster<P>, win: Window)
    requires image.WellFormed()
    requires win.rowLo <= win.rowHi <= image.height && win.colLo <= win.colHi <= image.width
  {
    && r.WellFormed()
    && r.height == win.rowHi - win.rowLo && r.width == win.colHi - win.colLo
    && r.channels == image.channels
    && forall y, x :: 0 <= y < r.height && 0 <= x < r.width ==>
      r.rows[y][x] == image.rows[win.rowLo + y][win.colLo + x]
  }

  /** The rows rowLo..rowHi and columns colLo..colHi of a raster. */
  function Crop<P(==)>(image: Raster<P>, win: Window): (r: Raster<P>)
    requires image.WellFormed()
    requires win.rowLo <= win.rowHi <= image.height && win.colLo <= win.colHi <= image.width
    ensures CropOf(r, image, win)
  {
    var rows := seq(win.rowHi - win.rowLo, y requires 0 <= y < win.rowHi - win.rowLo =>
      image.rows[win.rowLo + y][win.colLo..win.colHi]);
    Raster(win.rowHi - win.rowLo, win.colHi - win.colLo, image.channels, rows)
  }

  /** The padding `get_text_area_roi` uses when the caller gives none. */
  const DefaultPadding: int := 20

  /** `get_text_area_roi`: an invalid image, or no cached region, gives the
      image back; otherwise the image cropped to the region window. */
  function TextAreaRoi<P(==)>(image: Option<Raster<P>>, regions: seq<TextRegion>, padding: int): (r: Option<Raster<P>>)
    requires image.Some? ==> image.value.WellFormed()
    ensures !ValidateImage(ShapeOf(image)) ==> r == image
    ensures |regions| == 0 ==> r == image
    ensures ValidateImage(ShapeOf(image)) && |regions| > 0 ==>
      r.Some? && CropOf(r.value, image.value, RoiWindow(regions, padding, image.value.height, image.value.width))
  {
    if !ValidateImage(ShapeOf(image)) then image
    else if |regions| == 0 then image
    else
      var img := image.value;
      Some(Crop(img, RoiWindow(regions, padding, img.height, img.width)))
  }

  /** The detector object with its cache of the last region list. */
  class LayoutDetector {
    var textRegions: seq<TextRegion>

    constructor ()
      ensures textRegions == []
    {
      textRegions := [];
    }

    /** Computes the regions and, for a valid image, keeps them as the cache;
        an invalid image returns early and leaves the cache as it was. */
    method FindRegions(image: Option<Shape>, contours: seq<Contour>) returns (regions: seq<TextRegion>)
      requires forall i :: 0 <= i < |contours| ==> NonDegenerate(contours[i].box)
      modifies this
      ensures regions == FindTextRegions(image, contours)
      ensures textRegions == if ValidateImage(image) then regions else old(textRegions)
    {
      regions := FindTextRegions(image, contours);
      if ValidateImage(image) {
        textRegions := regions;
      }
    }

    /** The crop uses whatever regions the last successful detection cached. */
    method GetTextAreaRoi<P(==)>(image: Option<Raster<P>>, padding: int) returns (r: Option<Raster<P>>)
      requires image.Some? ==> image.value.WellFormed()
      ensures r == TextAreaRoi(image, textRegions, padding)
    {
      r := TextAreaRoi(image, textRegions, padding);
    }
  }
}

=== FILE: stable_sort.dfy ===
/** Python's `list.sort(key=...)`, which is guaranteed stable, modelled as
    insertion sort on a sequence. Keys are pairs compared lexicographically,
    as Python compares the tuples `(y, x)`; a single integer key `y` is the
    pair `(y, 0)`. */
module StableSort {

  type Key = (int, int)

  predicate KeyLe(a: Key, b: Key) {
    a.0 < b.0 || (a.0 == b.0 && a.1 <= b.1)
  }

  predicate KeyLt(a: Key, b: Key) {
    KeyLe(a, b) && a != b
  }

  /** Every element's key is at most every later element's key. */
  ghost predicate SortedBy<T>(s: seq<T>, key: T -> Key) {
    forall i, j :: 0 <= i < j < |s| ==> KeyLe(key(s[i]), key(s[j]))
  }

  /** The elements of `s` whose key is `k`, in their order in `s`. */
  function WithKey<T>(s: seq<T>, key: T -> Key, k: Key): seq<T> {
    if |s| == 0 then []
    else (if key(s[0]) == k then [s[0]] else []) + WithKey(s[1..], key, k)
  }

  lemma {:induction false} WithKeyAppend<T>(a: seq<T>, b: seq<T>, key: T -> Key, k: Key)
    ensures WithKey(a + b, key, k) == WithKey(a, key, k) + WithKey(b, key, k)
    decreases |a|
  {
    if |a| == 0 {
      assert a + b == b;
    } else {
      assert (a + b)[1..] == a[1..] + b;
      WithKeyAppend(a[1..], b, key, k);
    }
  }

  lemma {:induction false} WithKeyAbsent<T>(s: seq<T>, key: T -> Key, k: Key)
    requires forall i :: 0 <= i < |s| ==> key(s[i]) != k
    ensures WithKey(s, key, k) == []
    decreases |s|
  {
    if |s| > 0 {
      WithKeyAbsent(s[1..], key, k);
    }
  }

  /** Inserts `x` before the first element whose key is above its own, so
      that `x` follows the elements of equal key already placed. */
  function Insert<T>(x: T, s: seq<T>, key: T -> Key): seq<T>
    decreases |s|
  {
    if |s| == 0 then [x]
    else if KeyLt(key(x), key(s[0])) then [x] + s
    else [s[0]] + Insert(x, s[1..], key)
  }

  /** Insertion adds exactly the new element. */
  lemma {:induction false} InsertPermutes<T>(x: T, s: seq<T>, key: T -> Key)
    ensures multiset(Insert(x, s, key)) == multiset(s) + multiset{x}
    decreases |s|
  {
    if |s| > 0 && !KeyLt(key(x), key(s[0])) {
      InsertPermutes(x, s[1..], key);
      assert s == [s[0]] + s[1..];
    }
  }

  /** Inserting into a sorted sequence keeps it sorted. */
  lemma {:induction false} InsertSorted<T>(x: T, s: seq<T>, key: T -> Key)
    requires SortedBy(s, key)
    ensures SortedBy(Insert(x, s, key), key)
    decreases |s|
  {
    if |s| > 0 && !KeyLt(key(x), key(s[0])) {
      var rest := Insert(x, s[1..], key);
      InsertSorted(x, s[1..], key);
      InsertPermutes(x, s[1..], key);
      forall i | 0 <= i < |rest|
        ensures KeyLe(key(s[0]), key(rest[i]))
      {
        assert rest[i] in multiset(rest);
        if rest[i] != x {
          assert rest[i] in multiset(s[1..]);
          var j :| 0 <= j < |s[1..]| && s[1..][j] == rest[i];
          assert s[1..][j] == s[j + 1];
        }
      }
      assert Insert(x, s, key) == [s[0]] + rest;
    }
  }

  /** No element of a sorted sequence carries a key below that of its head. */
  lemma SortedHeadBelow<T>(x: T, s: seq<T>, key: T -> Key)
    requires SortedBy(s, key) && |s| > 0 && KeyLt(key(x), key(s[0]))
    ensures WithKey(s, key, key(x)) == []
  {
    forall i | 0 <= i < |s|
      ensures key(s[i]) != key(x)
    {
      if i > 0 {
        assert KeyLe(key(s[0]), key(s[i]));
      }
    }
    WithKeyAbsent(s, key, key(x));
  }

  /** Inserting `x` appends it to the elements of its own key and leaves the
      elements of every other key as they were. */
  lemma {:induction false} InsertWithKey<T>(x: T, s: seq<T>, key: T -> Key, k: Key)
    requires SortedBy(s, key)
    ensures WithKey(Insert(x, s, key), key, k) == WithKey(s, key, k) + (if key(x) == k then [x] else [])
    decreases |s|
  {
    var r := Insert(x, s, key);
    if |s| == 0 {
      assert r[1..] == [];
    } else if KeyLt(key(x), key(s[0])) {
      assert r[1..] == s;
      if key(x) == k {
        SortedHeadBelow(x, s, key);
      }
    } else {
      assert r[1..] == Insert(x, s[1..], key);
      InsertWithKey(x, s[1..], key, k);
    }
  }

  /** The stable sort of `s` by `key`: ordered by key, a permutation of `s`,
      and for every key the elements carrying it keep their input order. */
  function Sort<T>(s: seq<T>, key: T -> Key): (r: seq<T>)
    ensures SortedBy(r, key)
    ensures multiset(r) == multiset(s)
    ensures forall k :: WithKey(r, key, k) == WithKey(s, key, k)
    decreases |s|
  {
    if |s| == 0 then []
    else
      var init, last := s[..|s| - 1], s[|s| - 1];
      assert s == init + [last];
      var sorted := Sort(init, key);
      var r := Insert(last, sorted, key);
      InsertSorted(last, sorted, key);
      InsertPermutes(last, sorted, key);
      assert forall k :: WithKey(r, key, k) == WithKey(s, key, k) by {
        forall k
          ensures WithKey(r, key, k) == WithKey(s, key, k)
        {
          InsertWithKey(last, sorted, key, k);
          WithKeyAppend(init, [last], key, k);
          assert [last][1..] == [];
        }
      }
      r
  }
}

=== FILE: utils.dfy ===
/** The image helpers every analyzer relies on: the validity predicate, the
    output-size arithmetic of an aspect-preserving resize, and the image
    information record. Images are modelled by their array shape and, where
    pixels matter, by a row-major grid. */
module Utils {
  import opened Common

  /** The `shape` tuple of an n-dimensional array. */
  type Shape = seq<nat>

  /** Number of elements of an array of the given shape (`ndarray.size`);
      a 0-dimensional array holds one element. */
  function Size(s: Shape): nat {
    if |s| == 0 then 1 else s[0] * Size(s[1..])
  }

  /** An array is empty exactly when one of its dimensions is zero. */
  lemma {:induction false} SizeZeroIff(s: Shape)
    ensures Size(s) == 0 <==> exists i :: 0 <= i < |s| && s[i] == 0
    decreases |s|
  {
    if |s| > 0 {
      SizeZeroIff(s[1..]);
      if Size(s[1..]) == 0 {
        var i :| 0 <= i < |s[1..]| && s[1..][i] == 0;
        assert s[i + 1] == 0;
      }
      if exists i :: 0 <= i < |s| && s[i] == 0 {
        var i :| 0 <= i < |s| && s[i] == 0;
        if i > 0 {
          assert s[1..][i - 1] == 0;
        }
      }
    }
  }

  /** The shared validity gate: an array that is present, has two or three
      dimensions, holds at least one element and is at least 50 × 50. */
  function ValidateImage(image: Option<Shape>): (valid: bool)
    ensures valid <==>
      && image.Some?
      && (|image.value| == 2 || |image.value| == 3)
      && image.value[0] >= 50 && image.value[1] >= 50
      && (|image.value| == 3 ==> image.value[2] >= 1)
  {
    if image.None? then false
    else if |image.value| != 2 && |image.value| != 3 then false
    else
      SizeZeroIff(image.value);
      if Size(image.value) == 0 then false
      else
        var height, width := image.value[0], image.value[1];
        !(height < 50 || width < 50)
  }

  /** A decoded image: `rows` holds height × width pixels in row-major order;
      `channels` is None for a 2-D array and Some(c) for a height × width × c
      array, whose pixels `P` are then the c-vectors. */
  datatype Raster<P> = Raster(height: nat, width: nat, channels: Option<nat>, rows: seq<seq<P>>)
  {
    predicate WellFormed() {
      |rows| == height && forall y :: 0 <= y < |rows| ==> |rows[y]| == width
    }

    function Shape(): Shape {
      if channels.Some? then [height, width, channels.value] else [height, width]
    }
  }

  /** The shape of an image that may be absent. */
  function ShapeOf<P>(image: Option<Raster<P>>): Option<Shape> {
    if image.None? then None else Some(image.value.Shape())
  }

  /** A single-channel 2-D grid of intensities, row by row. */
  type Grid = seq<seq<int>>

  /** All rows of the grid have the width of the first. */
  predicate IsGrid(g: Grid) {
    forall y :: 0 <= y < |g| ==> |g[y]| == Width(g)
  }

  function Width(g: Grid): nat {
    if |g| == 0 then 0 else |g[0]|
  }

  function GridShape(g: Grid): Shape {
    [|g|, Width(g)]
  }

  /** A grid read as the 2-D single-channel raster it stands for. */
  function GridRaster(g: Grid): (r: Raster<int>)
    requires IsGrid(g)
    ensures r.WellFormed() && r.channels.None? && r.Shape() == GridShape(g)
  {
    Raster(|g|, Width(g), None, g)
  }

  /** A well-formed 2-D raster of intensities read as a grid. */
  function RasterGrid(r: Raster<int>): (g: Grid)
    requires r.WellFormed()
    ensures IsGrid(g) && |g| == r.height
    ensures r.height > 0 ==> Width(g) == r.width
  {
    r.rows
  }

  /** The two representations agree: a grid survives the trip through a
      raster, and so does every 2-D raster with at least one row. */
  lemma GridRasterRoundTrip(g: Grid, r: Raster<int>)
    requires IsGrid(g) && r.WellFormed()
    ensures RasterGrid(GridRaster(g)) == g
    ensures r.channels.None? && r.height > 0 ==> GridRaster(RasterGrid(r)) == r
  {
  }

  /** A 2-D grid passes the validity gate exactly when it is at least 50 × 50. */
  lemma ValidGrid(g: Grid)
    ensures ValidateImage(Some(GridShape(g))) <==> |g| >= 50 && Width(g) >= 50
  {
  }

  /** The new size of `resize_image`: the image is kept, or resized to
      (newWidth, newHeight). */
  datatype Resize = Unchanged | ResizeTo(newWidth: int, newHeight: int)

  /** Python truthiness of an optional integer target: present and non-zero. */
  predicate Truthy(target: Option<int>) {
    target.Some? && target.value != 0
  }

  /** The aspect-preserving size for scale = min(tw / width, th / height)
      computed exactly, each side truncated as `int()` does. One side meets
      its target exactly and neither exceeds it. */
  function ScaledSize(width: nat, height: nat, targetWidth: int, targetHeight: int): (size: (int, int))
    requires width > 0 && height > 0
    ensures size.0 <= targetWidth && size.1 <= targetHeight
    ensures size.0 == targetWidth || size.1 == targetHeight
    ensures targetWidth * height <= targetHeight * width ==> size.0 == targetWidth
    ensures targetHeight * width < targetWidth * height ==> size.1 == targetHeight
    ensures targetHeight * width < targetWidth * height ==>
      TruncQuotient(size.0, width * targetHeight, height)
    ensures targetWidth * height <= targetHeight * width ==>
      TruncQuotient(size.1, height * targetWidth, width)
  {
    // min(a, b) yields a unless b < a; th / h < tw / w iff th·w < tw·h
    if targetHeight * width < targetWidth * height then
      TruncDivAtMost(width * targetHeight, height, targetWidth);
      TruncDivBounds(width * targetHeight, height);
      (TruncDiv(width * targetHeight, height), targetHeight)
    else
      TruncDivAtMost(height * targetWidth, width, targetHeight);
      TruncDivBounds(height * targetWidth, width);
      (targetWidth, TruncDiv(height * targetWidth, width))
  }

  /** The size `resize_image` hands to the resize primitive once it has read
      the image's height and width, or the exception it raises before
      getting there. */
  function ResizeShape(height: nat, width: nat, targetWidth: Option<int>, targetHeight: Option<int>): (r: Outcome<Resize>)
    ensures targetWidth.None? && targetHeight.None? ==> r == Returns(Unchanged)
    ensures r == Returns(Unchanged) ==> targetWidth.None? && targetHeight.None?
    ensures r.Returns? && Truthy(targetWidth) ==> r.value.ResizeTo? && r.value.newWidth <= targetWidth.value
    ensures r.Returns? && Truthy(targetHeight) ==> r.value.ResizeTo? && r.value.newHeight <= targetHeight.value
    ensures r.Returns? && Truthy(targetWidth) && Truthy(targetHeight) && width > 0 && height > 0 ==>
      r.value == ResizeTo(ScaledSize(width, height, targetWidth.value, targetHeight.value).0,
                          ScaledSize(width, height, targetWidth.value, targetHeight.value).1)
    ensures r.Returns? && Truthy(targetWidth) && !Truthy(targetHeight) ==>
      && r.value.newWidth == targetWidth.value
      && TruncQuotient(r.value.newHeight, height * targetWidth.value, width)
    ensures r.Returns? && !Truthy(targetWidth) && targetHeight.Some? ==>
      && r.value.ResizeTo?
      && r.value.newHeight == targetHeight.value
      && TruncQuotient(r.value.newWidth, width * targetHeight.value, height)
    ensures r.Raises? <==>
      if Truthy(targetWidth) then width == 0 || (Truthy(targetHeight) && height == 0)
      else (targetWidth.Some? || targetHeight.Some?) && (targetHeight.None? || height == 0)
  {
    if targetWidth.None? && targetHeight.None? then Returns(Unchanged)
    else if Truthy(targetWidth) && Truthy(targetHeight) then
      if width == 0 || height == 0 then Raises(ZeroDivision)
      else
        var size := ScaledSize(width, height, targetWidth.value, targetHeight.value);
        Returns(ResizeTo(size.0, size.1))
    else if Truthy(targetWidth) then
      if width == 0 then Raises(ZeroDivision)
      else
        TruncDivBounds(height * targetWidth.value, width);
        Returns(ResizeTo(targetWidth.value, TruncDiv(height * targetWidth.value, width)))
    else if targetHeight.None? then Raises(NoneOperand)
    else if height == 0 then Raises(ZeroDivision)
    else
      TruncDivBounds(width * targetHeight.value, height);
      Returns(ResizeTo(TruncDiv(width * targetHeight.value, height), targetHeight.value))
  }

  /** `resize_image` on an optional image: reading the shape of `None` or
      unpacking a shape of fewer than two dimensions raises before any target
      is looked at; otherwise the outcome is that of its height and width. */
  function ResizeImage(image: Option<Shape>, targetWidth: Option<int>, targetHeight: Option<int>): (r: Outcome<Resize>)
    ensures image.None? ==> r == Raises(MissingAttribute)
    ensures image.Some? && |image.value| < 2 ==> r == Raises(UnpackMismatch)
    ensures image.Some? && |image.value| >= 2 ==>
      r == ResizeShape(image.value[0], image.value[1], targetWidth, targetHeight)
    ensures r == Returns(Unchanged) <==>
      image.Some? && |image.value| >= 2 && targetWidth.None? && targetHeight.None?
  {
    if image.None? then Raises(MissingAttribute)
    else if |image.value| < 2 then Raises(UnpackMismatch)
    else ResizeShape(image.value[0], image.value[1], targetWidth, targetHeight)
  }

  /** What `get_image_info` reports; the aspect ratio is the exact quotient. */
  datatype ImageInfo = ImageInfo(width: nat, height: nat, channels: nat, aspectRatio: real)

  /** None for an absent image; otherwise width, height, channel count and
      aspect ratio, or the exception unpacking or dividing raises. */
  function GetImageInfo(image: Option<Shape>): (r: Outcome<Option<ImageInfo>>)
    ensures image.None? ==> r == Returns(None)
    ensures image.Some? && |image.value| < 2 ==> r == Raises(UnpackMismatch)
    ensures image.Some? && |image.value| >= 2 ==> (r.Raises? <==> image.value[0] == 0)
    ensures image.Some? && r.Returns? ==> r.value.Some?
    ensures r.Returns? && r.value.Some? ==>
      && image.Some? && |image.value| >= 2
      && r.value.value.height == image.value[0]
      && r.value.value.width == image.value[1]
      && r.value.value.aspectRatio * (r.value.value.height as real) == r.value.value.width as real
      && (r.value.value.channels == if |image.value| == 3 then image.value[2] else 1)
  {
    if image.None? then Returns(None)
    else if |image.value| < 2 then Raises(UnpackMismatch)
    else
      var height, width := image.value[0], image.value[1];
      var channels := if |image.value| == 3 then image.value[2] else 1;
      if height == 0 then Raises(ZeroDivision)
      else Returns(Some(ImageInfo(width, height, channels, (width as real) / (height as real))))
  }

  /** Every image that passes the validity gate has an information record,
      with its sides at least 50 and at least one channel. */
  lemma ValidImageHasInfo(image: Option<Shape>)
    requires ValidateImage(image)
    ensures GetImageInfo(image).Returns? && GetImageInfo(image).value.Some?
    ensures GetImageInfo(image).value.value.width >= 50 && GetImageInfo(image).value.value.height >= 50
    ensures GetImageInfo(image).value.value.channels >= 1
  {
  }
}
